=== FILE: README.md ===
# kotonoha_core in Dafny

A model of the deterministic core of kotonoha_core, a voice-enabled secretary that keeps a
nested to-do list and speaks its replies and chatter through one serialized audio output.

- `speech.dfy` (module `Speech`): the speech arbitration queue of `src/speech.rs`. It has three
  FIFO tiers (User > Alert > Monologue) and a single worker. The worker drops a dequeued
  Monologue while the post-user window or the monologue cooldown is still open. The
  `SpeechQueue` class holds the tiers, the two timestamps of `State` and the `spoken` log, which
  stands for the calls to `tts::speak`. `Receive` is the worker taking one request off the
  channel, and `Step` is one pass that pops a head. `ReceiveAll`, `ServeAll` and
  `RunUntilClosed` are the worker loop.
- `tasks.dfy` (module `Tasks`): the task forest of `src/tasks.rs` as an in-memory value.
  - `mark_task_done` is proved against the preorder of the forest.
  - The due-date walk takes `today` as a parameter.
  - Id allocation in `add_task`.
  - The first-match title search.
  - The prompt summary, with the open titles read back from it.
- `chat.dfy` (module `Chat`): the offline branches of `src/chat.rs`:
  - title extraction (`mock_task_title`);
  - special-command detection;
  - the two keyword classifiers.
- `kotonoha.dfy` (module `Kotonoha`): `make_greeting_message`.
- `cli.dfy` (module `Cli`): the line routing of the `main` loop in `src/main.rs`, as a function
  from an input line and the language model's two replies to a command. It also has the loop over
  the input lines, with its effect on the task list, and the startup greeting `kotonoha_greeting`.
- `text.dfy` (module `Text`) and `base.dfy` (module `Base`): the string operations the source
  takes from Rust's standard library, and `Option`/`Result` with facts about concatenation. The
  string operations are `contains`, `find`, `starts_with`, `trim`, `to_lowercase`, `join`,
  `parse::<u32>` and decimal formatting.

Time is an integer passed in by the caller. `Instant::duration_since` saturates at zero, and so
does `Elapsed`. Dates are day numbers.

The speech queue records the user action when the worker receives a User request
(`src/speech.rs:59-60`, `src/speech.rs:126-127`), not when `say` is called.

The id `add_task` allocates is one more than the largest top-level id. Subtasks are not looked
at. `Tasks.NextIdCanRepeatSubtaskId` shows a list in which the new id already belongs to a
subtask, so a later `done` on that id completes the subtask and not the new task.

## Model

| member | source | states |
|---|---|---|
| Speech.RunMonologues | src/speech.rs:86-109 | Serving a Monologue tier at one instant: each head is dropped or spoken, at most as many are spoken as queued, and the cooldown mark becomes `now` exactly when one was spoken |
| Speech.SilentAfterSpeaking | src/speech.rs:98-108 | Right after a monologue was spoken, a positive cooldown drops every other monologue served at that instant |
| Speech.AtMostOneMonologuePerInstant | src/speech.rs:98-108 | With a positive cooldown, at most one monologue is spoken per instant however many are queued |
| Speech.ZeroWindowsSpeakAll | src/speech.rs:92-103 | With both windows zero, no monologue is dropped: all are spoken in queue order |
| Speech.UserActionSilencesMonologues | src/speech.rs:92-96 | While the post-user window is open every queued monologue is dropped and the cooldown mark is untouched |
| Speech.TextsOfPartition | src/speech.rs:54-71 | Every received request lands in exactly one tier |
| Speech.SpeechQueue.constructor | src/speech.rs:37-45 | `spawn`: the configured windows, three empty tiers, both timestamps unset (`State::default`), nothing spoken |
| Speech.SpeechQueue.Receive | src/speech.rs:54-71 | A request goes to the back of its own tier; a User request also sets the last user action to `now`; nothing else changes |
| Speech.SpeechQueue.MarkUserAction | src/speech.rs:153-156 | `mark_user_action` sets the last user action to `now` |
| Speech.SpeechQueue.Step | src/speech.rs:73-117 | One pass pops the head of the highest non-empty tier. User and Alert heads are always spoken. A Monologue head is dropped if either window is open, otherwise spoken with `now` recorded. Each pass that finds an item removes exactly one. The backend verdict changes nothing |
| Speech.SpeechQueue.ReceiveAll | src/speech.rs:54-71 | The `try_recv` loop appends each tier's texts in channel order and records a user action iff a User request arrived |
| Speech.SpeechQueue.ServeAll | src/speech.rs:52-118 | Passes with nothing arriving empty all tiers; the spoken log grows by the User tier, then the Alert tier, then the monologues not dropped |
| Speech.SpeechQueue.RunUntilClosed | src/speech.rs:51-137 | After the channel is closed, the worker stops only when the backlog is drained and all three tiers are empty; it serves every queued item exactly once, in priority order |
| Speech.UserPreemptsMonologue | tests/speech_queue.rs:23-34 | With a monologue queued before a User reply and zero windows, the first thing spoken is the User reply |
| Speech.AlertPreemptsMonologue | tests/speech_queue.rs:44-53 | With a monologue queued before an alert and zero windows, the first thing spoken is the alert |
| Speech.MonologueCooldownScenario | src/speech.rs:98-108 | Cooldown 10: a monologue at 0 is spoken (even if the backend fails), one at 5 is dropped, one at 10 is spoken |
| Speech.UserActionScenario | src/speech.rs:92-96 | Post-user window 10: a received User reply is spoken; a monologue 3 later is dropped, as is one 4 after `mark_user_action` |
| Tasks.MarkTaskDone | src/tasks.rs:157-169 | Returns true iff some node of the forest, in preorder, has the id. Only the first such node becomes done and Completed, and every other node's content and the nesting are kept. When false, the forest is unchanged. The result is the value `CompleteFirst` computes |
| Tasks.MarkRoot | src/tasks.rs:159-162 | Completing a root whose id matches, with no match before it, completes the first preorder match |
| Tasks.MarkInside | src/tasks.rs:164-166 | A completion inside a root's subtasks, with no match before that root, is the first preorder match of the whole forest |
| Tasks.MarkPass | src/tasks.rs:158-167 | A tree with no matching node leaves "no match so far" true for the trees after it |
| Tasks.ShapeReplace | src/tasks.rs:160-164 | Replacing a tree by one of the same nesting keeps the forest's nesting |
| Tasks.DueTasksMembers | src/tasks.rs:320-324 | The due filter keeps exactly the tasks not done whose due date lies from `today` to `limit` |
| Tasks.DueTasksAppend | src/tasks.rs:319-328 | The due tasks of a concatenation are those of its parts, in order |
| Tasks.WalkStep | src/tasks.rs:319-328 | Each tree adds its root, if due, then the due tasks of its subtasks, also below done parents |
| Tasks.DueTasksEmptyWindow | src/tasks.rs:312-313 | A window that ends before it starts holds nothing |
| Tasks.Walk | src/tasks.rs:318-329 | `walk` appends to `out` exactly the due tasks of the forest in preorder |
| Tasks.FindDueWithinDays | src/tasks.rs:311-333 | Returns exactly the not-done tasks of the forest due from `today` to `today + withinDays`, in preorder, and nothing for a negative `withinDays` |
| Tasks.MaxTopLevelId | src/tasks.rs:78 | The maximum of the top-level ids, 0 for an empty list |
| Tasks.NextId | src/tasks.rs:78 | The new id is above every top-level id, one more than some top-level id, and 1 for an empty list |
| Tasks.AddTask | src/tasks.rs:76-94 | `add_task` appends a not-done task with no due date and no subtasks under the new id, keeping the existing tasks and their order |
| Tasks.NextIdCanRepeatSubtaskId | src/tasks.rs:78 | The new id can already belong to a subtask, which a search by id then finds first |
| Tasks.IndexOfOpenMatch | src/tasks.rs:225 | The first task of a sequence that is not done and whose lower-cased title contains the needle |
| Tasks.IndexOfOpenMatchAppend | src/tasks.rs:238-245 | The first match of a concatenation is the first part's, else the second part's |
| Tasks.OpenMatchUnfold | src/tasks.rs:238-245 | The first match of a forest is its first root, else inside that root's subtasks, else among the later siblings |
| Tasks.FindInSubtasksFirst | src/tasks.rs:237-247 | `find_in_subtasks` returns the id of the first preorder match of the forest |
| Tasks.FindTaskIdByTitleFuzzy | src/tasks.rs:218-235 | Returns the id of the first preorder task that is not done and whose lower-cased title contains the lower-cased input; None iff there is no such task |
| Tasks.PendingCountAppend | src/kotonoha.rs:10 | The count of open top-level tasks adds up over concatenation |
| Tasks.OpenLinesCount | src/tasks.rs:299-301 | The summary has one line per open top-level task |
| Tasks.SummaryEmptyIff | src/tasks.rs:295-305 | The fixed "no tasks" sentence appears exactly for an empty list; any other list starts with the header line |
| Tasks.SummaryAllDone | src/tasks.rs:298-305 | A non-empty list with every task done still gets the header, followed by an empty list |
| Tasks.OpenLinesHaveNoNewline | src/tasks.rs:301 | The "・title" lines hold no newline when no open title does |
| Tasks.HeaderThenLines | src/tasks.rs:303-305 | Splitting the header line followed by newline-joined lines at newlines gives them back |
| Tasks.OpenLinesReadBack | src/tasks.rs:298-305 | Splitting the summary at newlines gives the header and the open lines |
| Tasks.SummaryReadsBack | src/tasks.rs:293-307 | With an open task and no newline in the open titles, the summary read line by line gives the header and one "・title" line per open top-level task |
| Chat.LastSeparator | src/chat.rs:41-42 | The last separator (whitespace or 、。,.！!?？) of a prefix, with none after it |
| Chat.TaskTitleShape | src/chat.rs:38-45 | With "タスク" in the input, the extracted title is the slice ending where the first "タスク" ends; it ends with "タスク", holds no separator and starts right after a separator or at 0 |
| Chat.MockTaskTitleAgrees | src/chat.rs:41-45 | Whenever `mock_task_title` does not panic it returns the intended title; a panic happens only on a non-ASCII separator of the input |
| Chat.AsciiSeparatorsNeverPanic | src/chat.rs:41-45 | On input whose separators are all one byte wide, `mock_task_title` returns the intended title |
| Chat.MockTaskTitlePanics | src/chat.rs:43-45 | "買い物、掃除タスク" makes `mock_task_title` slice inside "、", while the intended title is "掃除タスク" |
| Chat.CliFlowTitle | tests/cli_flow.rs:58 | `mock_task_title` applied to the CLI flow test's utterance gives "統合テストタスク" (the loop itself asks the language model, not `mock_task_title`) |
| Chat.SpecialCommandIsTaskRequest | src/chat.rs:153-159 | `detect_special_command` gives Some("list") iff the input contains "タスク一覧" or "タスク確認", and such input is a task request for the offline classifier |
| Chat.ClassifyInputGrows | src/chat.rs:53 | Input that contains a task request is a task request |
| Chat.ClassifyTaskActionGrows | src/chat.rs:100-111 | Input that contains another input gets an action from the same or an earlier keyword group ("完了" before "一覧" before "追加" before "なし"), never a later one |
| Chat.ListRequestIsListAction | src/chat.rs:104-106 | Input holding "タスク一覧", which `detect_special_command` reads as "list", is the "一覧" action unless it also holds "完了" |
| Chat.CompletionIsTaskRequest | src/chat.rs:101 | A completion request is also a task request for `classify_input` |
| Kotonoha.GreetingAllDone | src/kotonoha.rs:12-13 | With no open task, including an empty list, the greeting is the all-done message and contains "すべてのタスクが完了" |
| Kotonoha.GreetingCountReadsBack | src/kotonoha.rs:15 | With open tasks, the digits between the fixed parts of the greeting read back as the count |
| Kotonoha.GreetingOnePending | src/kotonoha.rs:63-82 | One open task gives "現在 1 件のタスクがあります。" |
| Kotonoha.GreetingIgnoresDone | src/kotonoha.rs:10 | Inserting a done task anywhere never changes the greeting |
| Kotonoha.CountGreetingIsNotAllDone | src/kotonoha.rs:12-15 | A count greeting is never the all-done greeting |
| Kotonoha.GreetingDeterminesCount | src/kotonoha.rs:9-16 | Two counts give the same greeting iff they are equal |
| Kotonoha.SameGreetingIffSameCount | src/kotonoha.rs:9-16 | Two task lists get the same greeting iff they have the same number of open top-level tasks |
| Cli.RouteIgnoresSurroundingWhitespace | src/main.rs:35 | The line is trimmed before any test: trimming it again changes nothing |
| Cli.QuitOnlyOnExit | src/main.rs:37-39 | The loop quits iff the trimmed line is "exit", before any other test |
| Cli.ManualCommandsSkipModel | src/main.rs:42-60 | "exit", "todo …", "list" and "done …" are decided without the model's replies |
| Cli.TodoRoundTrip | src/main.rs:42-46 | "todo " followed by a title adds exactly that title |
| Cli.DoneRoundTrip | src/main.rs:53-56 | "done " followed by any 32-bit number in decimal marks that id done |
| Cli.DoneNeedsU32 | src/main.rs:53-60 | A done command comes only from a "done " line whose id fits in 32 bits |
| Cli.AddedTitleIsNonEmpty | src/main.rs:113-119 | No task is added with an empty title or one ending in whitespace, from "todo " or from the extraction |
| Cli.ClassAnswersAreCanonical | src/chat.rs:260-264 | The classes "タスク" and "雑談" survive the trim and lower-casing of the reply |
| Cli.MockClassifierNeverFallsBack | src/main.rs:86-153 | If the offline classifier's answers were routed (the loop asks the language model instead), the routing would never reach the fallback apology |
| Cli.StartupGreetingMatchesKotonoha | src/main.rs:161-169 | The startup greeting equals `make_greeting_message` iff some top-level task is open |
| Cli.FirstExit | src/main.rs:30-39 | The index of the first line read as "exit", with none before it |
| Cli.AfterAdd | src/tasks.rs:78-94 | Adding a task appends its title and keeps the top-level ids distinct |
| Cli.Apply | src/main.rs:41-121 | A todo or an extracted title appends an open task with no due date and no subtasks under `NextId`; a done completes the first task with the id in preorder, keeping the nesting, or changes nothing when no task has it; every other command leaves the list alone. The top-level titles grow by the added title and distinct top-level ids stay distinct |
| Cli.RunSession | src/main.rs:30-154 | The loop handles lines until the first "exit", and the task list is the one-command-per-line fold `Session` of the handled lines; the top-level titles become the old ones followed by the titles the handled lines add, and distinct top-level ids stay distinct |
| Text.TrimShape | src/main.rs:35 | `trim` returns the slice between the leading and trailing whitespace, and neither end of the result is whitespace |
| Text.TrimIdempotent | src/main.rs:35 | Trimming twice is trimming once |
| Text.ParseU32 | src/main.rs:54 | `parse::<u32>` accepts only text that is an optional '+' followed by one or more decimal digits, and the number it returns is the value of those digits, at most 4294967295; the empty string and a lone '+' are refused |
| Text.ParseCanonical | src/main.rs:54 | A number parsed from digits written without '+' and without a leading zero formats back to the same text |
| Text.ParseDecimal | src/main.rs:54 | `parse::<u32>` reads back every 32-bit number written in decimal |
| Text.DecimalValue | src/kotonoha.rs:15 | The decimal digits of a count read back as the count |
| Text.SplitJoin | src/tasks.rs:303 | Splitting newline-joined lines that hold no newline gives them back |

Definitions that carry no contract of their own, and the rows above that state their properties:

- Cli.RouteLine, Cli.RouteTrimmed, Cli.RouteByModel (src/main.rs:35-153): Cli.RouteIgnoresSurroundingWhitespace, Cli.QuitOnlyOnExit, Cli.ManualCommandsSkipModel, Cli.TodoRoundTrip, Cli.DoneRoundTrip, Cli.DoneNeedsU32, Cli.AddedTitleIsNonEmpty, Cli.MockClassifierNeverFallsBack.
- Cli.StartupGreeting (src/main.rs:161-169): Cli.StartupGreetingMatchesKotonoha.
- Cli.Effect and Cli.Session (src/main.rs:30-154): Cli.Apply, Cli.RunSession.
- Chat.MockTaskTitle (src/chat.rs:37-49): Chat.MockTaskTitleAgrees, Chat.AsciiSeparatorsNeverPanic, Chat.MockTaskTitlePanics, Chat.CliFlowTitle.
- Chat.TaskTitle (the intended extraction): Chat.TaskTitleShape, Chat.MockTaskTitleAgrees.
- Chat.DetectSpecialCommand (src/chat.rs:153-159): Chat.SpecialCommandIsTaskRequest, Chat.ListRequestIsListAction.
- Chat.ClassifyInputMock (src/chat.rs:52-57): Chat.ClassifyInputGrows, Chat.CompletionIsTaskRequest, Chat.SpecialCommandIsTaskRequest.
- Chat.ClassifyTaskActionMock (src/chat.rs:100-111): Chat.ClassifyTaskActionGrows, Chat.ListRequestIsListAction, Chat.CompletionIsTaskRequest.
- Kotonoha.MakeGreetingMessage (src/kotonoha.rs:9-16): the Kotonoha rows.
- Tasks.SummarizeTasksForPrompt (src/tasks.rs:293-307): Tasks.SummaryEmptyIff, Tasks.SummaryAllDone, Tasks.OpenLinesReadBack, Tasks.SummaryReadsBack.
- Tasks.FindInSubtasks (src/tasks.rs:237-247): Tasks.FindInSubtasksFirst.
- Tasks.CompleteFirst (src/tasks.rs:157-169): Tasks.MarkTaskDone, Cli.Apply.
- Text.Trim (src/main.rs:35): Text.TrimShape, Text.TrimIdempotent.

## Left out

- The OpenAI HTTP calls and JSON parsing in `src/chat.rs` and `src/main.rs`. The classification and extraction replies are inputs (`Cli.Replies`). Network and parse errors, which end `main` through `?`, are not modelled. Nor is the panic of indexing `choices[0]` when a reply carries no choices (src/main.rs:86, 113, 142).
- Speech output (`src/tts.rs`): the VoiceVox and audio-playback calls. In the speech worker, a call to `tts::speak` is an append to the `spoken` log, with the backend's verdict as a parameter that changes nothing else.
- tokio concurrency in `src/speech.rs`: the channel's capacity and backpressure, the mutexes, and `tokio::spawn`. The worker is a sequence of calls. `say` and its variants are the sender's side of the channel, and the model receives with `Receive`.
- Speech.SpeechQueue.ServeAll: serves at one instant `now`. Time passing between passes is modelled only through separate `Step` calls.
- The task file: `load_tasks*`, `save_tasks*` and `set_task_file`. The forest is a value passed in and returned. `mark_done_in` loads from one path and saves to the default one; this I/O difference is not modelled.
- Tasks.MarkTaskDone: returns the updated forest as a new value instead of updating it in place. The id stays a `nat`, with no `u32` width.
- Tasks.NextId: does not model the `u32` overflow of `max + 1` when a top-level id is 4294967295.
- `list_tasks` and `display_tasks` only print, and are not modelled.
- The `Task` record's `priority`, `visibility`, `notes`, `tags` and `extensions` fields, which `add_task` sets to their empty values (src/tasks.rs:85-91): no modelled operation reads or changes them, so the `Task` datatype omits them.
- The Jaro-Winkler similarity search (`find_best_match`, `find_task_id_by_similarity*`, `find_task_with_score`): it uses floating point and a foreign crate.
- Tasks.FindTaskIdByTitleFuzzy: lower-cases ASCII letters only. Rust's `to_lowercase` is Unicode-wide.
- Cli.RouteByModel: lower-cases the classification with the same ASCII-only rule.
- `Local::now()` and the chrono date arithmetic: today is a day-number parameter and the limit is `today + withinDays`.
- Tasks.FindDueWithinDays: does not model the panic of `today + chrono::Duration::days(within_days)` (src/tasks.rs:313) when the limit falls outside chrono's date range; day numbers are unbounded here.
- The periodic timers `kotonoha_timer` and `timer`, the `greeting` wrapper that speaks and records the message, and `src/encourage.rs` (a random choice).
- Cli.RunSession: the input is a finite sequence of lines, and the loop is modelled as ending only on "exit" or when the lines run out. In the source, `main` also ends early through `?` when `tts::speak` fails (src/main.rs:117, 145, 151), when flushing standard output or reading a line fails (src/main.rs:32-34), and on the network and parse errors above; the greeting's `tts::speak` (src/main.rs:171) can end `main` before the loop starts. End of input (`read_line` returning nothing) and the printing of prompts and replies are not modelled.

## Findings

| source | as written | input that shows it | evidently intended | confidence | as-written member | corrected member |
|---|---|---|---|---|---|---|
| src/chat.rs:41-45 | The title starts at the byte after the start of the last separator (`pos + 1`). For a separator wider than one byte (、 。 ！ ？ or a full-width space) that index is inside the character, and slicing there panics | "買い物、掃除タスク" | Start the title after the whole separator, giving "掃除タスク" | not executed | Chat.MockTaskTitlePanics | Chat.TaskTitleShape |

=== FILE: base.dfy ===
/**
  * Option and Result, the shapes the Rust code gets from `Option<T>` and `Result<T, E>`,
  * and facts about concatenation shared by the other modules.
  */
module Base {

  datatype Option<+T> = None | Some(value: T)

  datatype Result<+T, +E> = Ok(value: T) | Err(error: E)

  // Facts about concatenation, stated for any element type: proved where no function of
  // another module can be unfolded, then applied to sequences of tasks, texts or requests.

  lemma AppendEmpty<T>(b: seq<T>)
    ensures [] + b == b
  {
  }

  /** The first element and the rest of a concatenation whose first part is not empty. */
  lemma AppendTail<T>(a: seq<T>, b: seq<T>)
    requires a != []
    ensures (a + b)[0] == a[0] && (a + b)[1..] == a[1..] + b
  {
  }

  lemma Associate<T>(a: seq<T>, b: seq<T>, c: seq<T>)
    ensures a + (b + c) == a + b + c
  {
  }

  lemma Regroup<T>(a: seq<T>, b: seq<T>, c: seq<T>, d: seq<T>)
    ensures a + (b + c + d) == a + b + c + d
  {
  }
}

=== FILE: chat.dfy ===
/**
  * The offline ("mock") behaviour of src/chat.rs: the title the assistant extracts from an
  * utterance, the special "list" command, and the two keyword classifiers that stand in for
  * the language model when no network is used.
  */
module Chat {
  import opened Base
  import opened Text

  const TaskWord: string := "タスク"
  const TaskClass: string := "タスク"
  const ChatClass: string := "雑談"

  /** The chars a title never spans: whitespace and the listed punctuation, full- and half-width. */
  predicate IsTitleSeparator(c: char) {
    IsWhitespace(c) || c == '、' || c == '。' || c == ',' || c == '.'
    || c == '！' || c == '!' || c == '?' || c == '？'
  }

  /** A char that UTF-8 encodes in one byte. */
  predicate IsAscii(c: char) {
    c as int < 0x80
  }

  /** `str::rfind` with the separator test: the index of the last separator in `s`. */
  function LastSeparator(s: string): (r: Option<nat>)
    ensures r.Some? ==> r.value < |s| && IsTitleSeparator(s[r.value])
    ensures forall q :: (if r.Some? then r.value + 1 else 0) <= q < |s| ==> !IsTitleSeparator(s[q])
  {
    if s == [] then None
    else if IsTitleSeparator(s[|s| - 1]) then Some(|s| - 1)
    else LastSeparator(s[..|s| - 1])
  }

  /** Dropping a last char that is not a separator does not move the last separator. */
  lemma LastSeparatorSkip(s: string, k: nat)
    requires 0 < k <= |s| && !IsTitleSeparator(s[k - 1])
    ensures LastSeparator(s[..k]) == LastSeparator(s[..k - 1])
  {
    assert s[..k][..k - 1] == s[..k - 1];
  }

  /**
    * `mock_task_title` as written. With "タスク" in the input: cut the input just after the
    * first "タスク" and keep what follows the last separator, found as a byte position to
    * which 1 is added. That start is inside the separator's encoding when the separator is
    * wider than one byte, and slicing there panics: `Err(c)` is that panic, `c` the separator.
    * Without "タスク": the trimmed input.
    */
  function MockTaskTitle(input: string): Result<string, char> {
    match Find(input, TaskWord)
    case Some(idx) =>
      var prefix := input[..idx + |TaskWord|];
      (match LastSeparator(prefix)
       case Some(p) => if IsAscii(prefix[p]) then Ok(prefix[p + 1..]) else Err(prefix[p])
       case None => Ok(prefix))
    case None => Ok(Trim(input))
  }

  /** The title extraction as intended: the title starts right after the last separator, whatever its width. */
  function TaskTitle(input: string): string {
    match Find(input, TaskWord)
    case Some(idx) =>
      var prefix := input[..idx + |TaskWord|];
      (match LastSeparator(prefix)
       case Some(p) => prefix[p + 1..]
       case None => prefix)
    case None => Trim(input)
  }

  lemma TaskWordHasNoSeparator(k: nat)
    requires k < |TaskWord|
    ensures !IsTitleSeparator(TaskWord[k])
  {
  }

  /**
    * With "タスク" in the input, the title is the longest run of non-separators that ends
    * exactly where the first "タスク" ends; so it ends with "タスク".
    */
  lemma TaskTitleShape(input: string)
    requires Contains(input, TaskWord)
    ensures var stop := Find(input, TaskWord).value + |TaskWord|;
            var r := TaskTitle(input);
            && |TaskWord| <= |r| <= stop <= |input|
            && r == input[stop - |r|..stop]
            && EndsWith(r, TaskWord)
            && (forall k :: 0 <= k < |r| ==> !IsTitleSeparator(r[k]))
            && (stop - |r| > 0 ==> IsTitleSeparator(input[stop - |r| - 1]))
  {
    var idx := Find(input, TaskWord).value;
    var stop := idx + |TaskWord|;
    var prefix := input[..stop];
    assert prefix[idx..] == TaskWord;
    match LastSeparator(prefix)
    case Some(p) =>
      if p >= idx {
        TaskWordHasNoSeparator(p - idx);
      }
      assert prefix[p + 1..][|prefix| - p - 1 - |TaskWord|..] == TaskWord;
    case None =>
  }

  /** Whenever `mock_task_title` does not panic, it returns the intended title. */
  lemma MockTaskTitleAgrees(input: string)
    ensures MockTaskTitle(input).Ok? ==> MockTaskTitle(input).value == TaskTitle(input)
    ensures MockTaskTitle(input).Err? ==>
              var c := MockTaskTitle(input).error;
              IsTitleSeparator(c) && !IsAscii(c) && Contains(input, [c])
  {
    if MockTaskTitle(input).Err? {
      var idx := Find(input, TaskWord).value;
      var p := LastSeparator(input[..idx + |TaskWord|]).value;
      ContainsAt(input, [input[p]], p);
    }
  }

  /** On input whose separators all fit in one byte, `mock_task_title` never panics. */
  lemma AsciiSeparatorsNeverPanic(input: string)
    requires forall k :: 0 <= k < |input| && IsTitleSeparator(input[k]) ==> IsAscii(input[k])
    ensures MockTaskTitle(input) == Ok(TaskTitle(input))
  {
  }

  /** Moving the search for "タスク" past a position where it cannot start. */
  lemma FindSkip(s: string, from: nat)
    requires from + 2 < |s| && s[from + 2] != TaskWord[2]
    ensures FindFrom(s, TaskWord, from) == FindFrom(s, TaskWord, from + 1)
  {
    assert s[from..from + |TaskWord|][2] == s[from + 2];
  }

  lemma PanicExampleFind(input: string)
    requires input == "買い物、掃除タスク"
    ensures Find(input, TaskWord) == Some(6) && input[..9] == input
  {
    FindSkip(input, 0); FindSkip(input, 1); FindSkip(input, 2);
    FindSkip(input, 3); FindSkip(input, 4); FindSkip(input, 5);
    assert OccursAt(input, TaskWord, 6);
  }

  lemma PanicExampleSeparator(input: string)
    requires input == "買い物、掃除タスク"
    ensures LastSeparator(input) == Some(3) && input[3] == '、' && input[4..] == "掃除タスク"
  {
    assert input[..9] == input;
    LastSeparatorSkip(input, 9); LastSeparatorSkip(input, 8); LastSeparatorSkip(input, 7);
    LastSeparatorSkip(input, 6); LastSeparatorSkip(input, 5);
  }

  /** A full-width comma before "タスク": the byte slice starts inside "、" and panics; the intended title is "掃除タスク". */
  lemma MockTaskTitlePanics(input: string)
    requires input == "買い物、掃除タスク"
    ensures MockTaskTitle(input) == Err('、')
    ensures TaskTitle(input) == "掃除タスク"
  {
    PanicExampleFind(input);
    PanicExampleSeparator(input);
  }

  lemma CliExampleFind(a: string, b: string)
    requires a == "統合テストタスク"
    ensures Find(a + b, TaskWord) == Some(5) && (a + b)[..8] == a
  {
    var input := a + b;
    assert input[..8] == a;
    FindSkip(input, 0); FindSkip(input, 1); FindSkip(input, 2);
    FindSkip(input, 3); FindSkip(input, 4);
    assert OccursAt(input, TaskWord, 5);
  }

  lemma CliExampleSeparator(a: string)
    requires a == "統合テストタスク"
    ensures LastSeparator(a) == None
  {
    assert a[..8] == a;
    LastSeparatorSkip(a, 8); LastSeparatorSkip(a, 7); LastSeparatorSkip(a, 6);
    LastSeparatorSkip(a, 5); LastSeparatorSkip(a, 4); LastSeparatorSkip(a, 3);
    LastSeparatorSkip(a, 2); LastSeparatorSkip(a, 1);
  }

  /** The utterance of the CLI flow test keeps everything up to its first "タスク", whatever follows it. */
  lemma CliFlowTitle(a: string, b: string)
    requires a == "統合テストタスク" && b == "をするの覚えておいて"
    ensures MockTaskTitle(a + b) == Ok("統合テストタスク")
  {
    CliExampleFind(a, b);
    CliExampleSeparator(a);
  }

  /** `detect_special_command`: "list" when the input asks for the task list. */
  function DetectSpecialCommand(input: string): Option<string> {
    if Contains(input, "タスク一覧") || Contains(input, "タスク確認") then Some("list") else None
  }

  /** `classify_input` without the network. */
  function ClassifyInputMock(input: string): string {
    if Contains(input, "タスク") || Contains(input, "やる") || Contains(input, "完了") then TaskClass
    else ChatClass
  }

  /** `classify_task_action` without the network: the first keyword group that matches wins. */
  function ClassifyTaskActionMock(input: string): string {
    if Contains(input, "完了") then "完了"
    else if Contains(input, "一覧") then "一覧"
    else if Contains(input, "追加") || Contains(input, "覚えて") || Contains(input, "登録") then "追加"
    else "なし"
  }

  /** A request for the list always mentions "タスク", so the offline classifier calls it a task request. */
  lemma SpecialCommandIsTaskRequest(input: string)
    ensures DetectSpecialCommand(input).Some? <==> Contains(input, "タスク一覧") || Contains(input, "タスク確認")
    ensures DetectSpecialCommand(input).Some? ==> DetectSpecialCommand(input).value == "list"
    ensures DetectSpecialCommand(input).Some? ==> Contains(input, TaskWord) && ClassifyInputMock(input) == TaskClass
  {
    if Contains(input, "タスク一覧") {
      assert OccursAt("タスク一覧", TaskWord, 0);
      ContainsAt("タスク一覧", TaskWord, 0);
      ContainsTransitive(input, "タスク一覧", TaskWord);
    } else if Contains(input, "タスク確認") {
      assert OccursAt("タスク確認", TaskWord, 0);
      ContainsAt("タスク確認", TaskWord, 0);
      ContainsTransitive(input, "タスク確認", TaskWord);
    }
  }

  /** The offline classifier answers one of the two classes, "タスク" exactly when a keyword occurs. */
  lemma ClassifyInputAnswers(input: string)
    ensures ClassifyInputMock(input) == TaskClass || ClassifyInputMock(input) == ChatClass
    ensures ClassifyInputMock(input) == TaskClass
            <==> exists w :: w in ["タスク", "やる", "完了"] && Contains(input, w)
  {
    if Contains(input, "タスク") {
      assert "タスク" in ["タスク", "やる", "完了"];
    } else if Contains(input, "やる") {
      assert "やる" in ["タスク", "やる", "完了"];
    } else if Contains(input, "完了") {
      assert "完了" in ["タスク", "やる", "完了"];
    }
  }

  /** Saying more never turns a task request into chat. */
  lemma ClassifyInputGrows(input: string, outer: string)
    requires Contains(outer, input) && ClassifyInputMock(input) == TaskClass
    ensures ClassifyInputMock(outer) == TaskClass
  {
    if Contains(input, "タスク") {
      ContainsTransitive(outer, input, "タスク");
    } else if Contains(input, "やる") {
      ContainsTransitive(outer, input, "やる");
    } else {
      ContainsTransitive(outer, input, "完了");
    }
  }

  /** How early the keyword group of an action is tested: "完了" first, "なし" last. */
  function ActionRank(action: string): nat {
    if action == "完了" then 3 else if action == "一覧" then 2 else if action == "追加" then 1 else 0
  }

  /** Saying more can only move the action toward an earlier keyword group, never back. */
  lemma ClassifyTaskActionGrows(input: string, outer: string)
    requires Contains(outer, input)
    ensures ActionRank(ClassifyTaskActionMock(outer)) >= ActionRank(ClassifyTaskActionMock(input))
  {
    if Contains(input, "完了") {
      ContainsTransitive(outer, input, "完了");
    } else if Contains(input, "一覧") {
      ContainsTransitive(outer, input, "一覧");
    } else if Contains(input, "追加") {
      ContainsTransitive(outer, input, "追加");
    } else if Contains(input, "覚えて") {
      ContainsTransitive(outer, input, "覚えて");
    } else if Contains(input, "登録") {
      ContainsTransitive(outer, input, "登録");
    }
  }

  /** A request for "タスク一覧" is a list action, unless it also speaks of completion. */
  lemma ListRequestIsListAction(input: string)
    requires Contains(input, "タスク一覧")
    ensures ClassifyTaskActionMock(input) == (if Contains(input, "完了") then "完了" else "一覧")
  {
    ContainsInfix("タスク", "一覧", []);
    assert "タスク" + "一覧" + [] == "タスク一覧";
    ContainsTransitive(input, "タスク一覧", "一覧");
  }

  /** A completion request is also a task request for the input classifier. */
  lemma CompletionIsTaskRequest(input: string)
    requires ClassifyTaskActionMock(input) == "完了"
    ensures ClassifyInputMock(input) == TaskClass
  {
  }
}

=== FILE: cli.dfy ===
/**
  * The command loop of src/main.rs: each input line is trimmed and routed through a fixed
  * chain of tests (exit, "todo ", list, "done ", then the language model's classification),
  * and the startup greeting. The model's replies are inputs: the classification reply for the
  * line and the title it extracts.
  */
module Cli {
  import opened Base
  import opened Text
  import opened Tasks
  import opened Chat
  import opened Kotonoha

  /** What the loop does with one line. */
  datatype Command =
    | Quit                     // "exit": leave the loop
    | Add(title: string)       // add a task with this title
    | List                     // list the tasks
    | Done(id: nat)            // mark the task with this id done
    | BadId                    // "done " followed by something that is not a u32: warn, change nothing
    | NoTask                   // the model found no title in a task request
    | Converse(prompt: string) // ask the model for a chat reply to the line
    | Fallback                 // the classification was neither "タスク" nor "雑談": apologise

  /** The two replies of the language model the loop may use for a line. */
  datatype Replies = Replies(classification: string, extraction: string)

  const ExitCommand: string := "exit"
  const ListCommand: string := "list"
  const TodoPrefix: string := "todo "
  const DonePrefix: string := "done "
  const NoTitle: string := "なし"

  /** The routing of one input line: it is trimmed before any test. */
  function RouteLine(raw: string, replies: Replies): Command {
    RouteTrimmed(Trim(raw), replies)
  }

  /** The tests on the trimmed line, in the order the loop makes them. */
  function RouteTrimmed(line: string, replies: Replies): Command {
    if line == ExitCommand then Quit
    else if StartsWith(line, TodoPrefix) then Add(line[|TodoPrefix|..])
    else if line == ListCommand then List
    else if StartsWith(line, DonePrefix) then
      match ParseU32(line[|DonePrefix|..])
      case Some(id) => Done(id)
      case None => BadId
    else RouteByModel(line, replies)
  }

  /** Any other line: the trimmed, lower-cased classification decides. */
  function RouteByModel(line: string, replies: Replies): Command {
    var mode := ToLower(Trim(replies.classification));
    if mode == TaskClass then
      var title := Trim(replies.extraction);
      if title == [] || title == NoTitle then NoTask else Add(title)
    else if mode == ChatClass then Converse(line)
    else Fallback
  }

  /** Only the trimmed line matters: surrounding whitespace never changes what the loop does. */
  lemma RouteIgnoresSurroundingWhitespace(raw: string, replies: Replies)
    ensures RouteLine(Trim(raw), replies) == RouteLine(raw, replies)
  {
    TrimIdempotent(raw);
  }

  /** The loop ends on exactly one input, "exit" up to surrounding whitespace. */
  lemma QuitOnlyOnExit(raw: string, replies: Replies)
    ensures RouteLine(raw, replies) == Quit <==> IsExit(raw)
  {
  }

  /** The manual commands are decided without consulting the language model. */
  lemma ManualCommandsSkipModel(raw: string, r1: Replies, r2: Replies)
    requires var line := Trim(raw);
             line == ExitCommand || line == ListCommand
             || StartsWith(line, TodoPrefix) || StartsWith(line, DonePrefix)
    ensures RouteLine(raw, r1) == RouteLine(raw, r2)
  {
  }

  /** "todo <title>" adds exactly `title`, whatever the model would say. */
  lemma TodoRoundTrip(title: string, replies: Replies)
    requires title != [] && !IsWhitespace(title[|title| - 1])
    ensures RouteLine(TodoPrefix + title, replies) == Add(title)
  {
    var line := TodoPrefix + title;
    TrimNoop(line);
    assert line[..|TodoPrefix|] == TodoPrefix;
    assert line[|TodoPrefix|..] == title;
  }

  /** "done <n>" with `n` written in decimal marks task `n` done, for every 32-bit `n`. */
  lemma DoneRoundTrip(n: nat, replies: Replies)
    requires n <= U32_MAX
    ensures RouteLine(DonePrefix + Decimal(n), replies) == Done(n)
  {
    var line := DonePrefix + Decimal(n);
    TrimNoop(line);
    assert line[..|DonePrefix|] == DonePrefix;
    assert line[|DonePrefix|..] == Decimal(n);
    assert !StartsWith(line, TodoPrefix) by {
      assert line[0] != TodoPrefix[0];
    }
    ParseDecimal(n);
  }

  /** A "done" id always fits in 32 bits and comes from the "done " command. */
  lemma DoneNeedsU32(raw: string, replies: Replies)
    requires RouteLine(raw, replies).Done?
    ensures RouteLine(raw, replies).id <= U32_MAX
    ensures StartsWith(Trim(raw), DonePrefix)
  {
  }

  /** No task is ever added with an empty title or a title ending in whitespace. */
  lemma AddedTitleIsNonEmpty(raw: string, replies: Replies)
    requires RouteLine(raw, replies).Add?
    ensures var t := RouteLine(raw, replies).title;
            t != [] && !IsWhitespace(t[|t| - 1])
  {
    var line := Trim(raw);
    TrimShape(raw);
    TrimShape(replies.extraction);
    if StartsWith(line, TodoPrefix) {
      assert IsWhitespace(line[|TodoPrefix| - 1]);
      assert |line| > |TodoPrefix|;
    }
  }

  lemma ClassAnswersAreCanonical()
    ensures ToLower(Trim(TaskClass)) == TaskClass
    ensures ToLower(Trim(ChatClass)) == ChatClass
  {
    TrimNoop(TaskClass);
    TrimNoop(ChatClass);
    assert ToLower(TaskClass) == TaskClass;
    assert ToLower(ChatClass) == ChatClass;
  }

  /**
    * If the offline classifier's answer were routed (the loop asks the language model instead),
    * the loop would never fall back to its apology.
    */
  lemma MockClassifierNeverFallsBack(raw: string, extraction: string)
    ensures RouteLine(raw, Replies(ClassifyInputMock(Trim(raw)), extraction)) != Fallback
  {
    ClassAnswersAreCanonical();
    ClassifyInputAnswers(Trim(raw));
  }

  /** `kotonoha_greeting`: like the greeting of src/kotonoha.rs but with its own all-done wording. */
  function StartupGreeting(tasks: seq<Task>): string {
    if PendingCount(tasks) == 0 then "おはようございます。現在登録されているすべてのタスクが完了しています。"
    else CountPrefix + Decimal(PendingCount(tasks)) + CountSuffix
  }

  /** The two greetings agree exactly when some top-level task is open. */
  lemma StartupGreetingMatchesKotonoha(tasks: seq<Task>)
    ensures StartupGreeting(tasks) == MakeGreetingMessage(tasks) <==> PendingCount(tasks) > 0
  {
    if PendingCount(tasks) == 0 {
      assert StartupGreeting(tasks)[10] != AllDoneGreeting[10];
    }
  }

  /** The loop reads `raw` as "exit". */
  predicate IsExit(raw: string) {
    Trim(raw) == ExitCommand
  }

  /** Index of the first line the loop reads as "exit", or `|lines|` when there is none. */
  function FirstExit(lines: seq<string>): (k: nat)
    ensures k <= |lines|
    ensures k < |lines| ==> IsExit(lines[k])
    ensures forall j :: 0 <= j < k ==> !IsExit(lines[j])
  {
    if lines == [] then 0
    else if IsExit(lines[0]) then 0
    else 1 + FirstExit(lines[1..])
  }

  /** The titles added by the lines, in order, line `k` routed with `reply(k)`. */
  function AddedTitles(lines: seq<string>, reply: nat -> Replies): seq<string>
    decreases |lines|
  {
    if lines == [] then []
    else
      var k := |lines| - 1;
      var c := RouteLine(lines[k], reply(k));
      AddedTitles(lines[..k], reply) + NewTitles(c)
  }

  function Titles(tasks: seq<Task>): seq<string> {
    seq(|tasks|, k requires 0 <= k < |tasks| => tasks[k].title)
  }

  predicate DistinctIds(tasks: seq<Task>) {
    forall i, j :: 0 <= i < j < |tasks| ==> tasks[i].id != tasks[j].id
  }

  /** One more line handled: its titles follow those of the lines before it. */
  lemma AddedTitlesStep(tasks: seq<Task>, before: seq<Task>, after: seq<Task>,
                        lines: seq<string>, reply: nat -> Replies, i: nat)
    requires i < |lines|
    requires Titles(before) == Titles(tasks) + AddedTitles(lines[..i], reply)
    requires Titles(after) == Titles(before) + NewTitles(RouteLine(lines[i], reply(i)))
    ensures Titles(after) == Titles(tasks) + AddedTitles(lines[..i + 1], reply)
  {
    assert lines[..i + 1][..i] == lines[..i];
    Associate(Titles(tasks), AddedTitles(lines[..i], reply), NewTitles(RouteLine(lines[i], reply(i))));
  }

  /** The loop stops at the first "exit", having passed every line before it. */
  lemma FirstExitIs(lines: seq<string>, i: nat)
    requires i <= FirstExit(lines)
    requires i < |lines| ==> IsExit(lines[i])
    ensures FirstExit(lines) == i
  {
  }

  lemma PassExit(lines: seq<string>, i: nat)
    requires i <= FirstExit(lines) && i < |lines| && !IsExit(lines[i])
    ensures i + 1 <= FirstExit(lines)
  {
  }

  /** Adding a task appends its title and keeps the top-level ids distinct. */
  lemma AfterAdd(tasks: seq<Task>, updated: seq<Task>, title: string)
    requires |updated| == |tasks| + 1 && updated[..|tasks|] == tasks && updated[|tasks|].title == title
    requires forall i :: 0 <= i < |tasks| ==> updated[i].id < updated[|tasks|].id
    ensures Titles(updated) == Titles(tasks) + [title]
    ensures DistinctIds(tasks) ==> DistinctIds(updated)
  {
    assert forall k :: 0 <= k < |tasks| ==> updated[k] == tasks[k];
  }

  /** Marking a task done keeps the top-level titles and ids. */
  lemma AfterMark(tasks: seq<Task>, updated: seq<Task>)
    requires |updated| == |tasks|
    requires forall i :: 0 <= i < |tasks| ==> updated[i].id == tasks[i].id && updated[i].title == tasks[i].title
    ensures Titles(updated) == Titles(tasks)
    ensures DistinctIds(tasks) ==> DistinctIds(updated)
  {
  }

  /** The titles a command adds to the list. */
  function NewTitles(command: Command): seq<string> {
    if command.Add? then [command.title] else []
  }

  /**
    * The effect of one command on the task list: "todo" or a found title appends a new task,
    * "done" completes the first task with the id in preorder; every other command leaves the
    * list alone.
    */
  function Effect(tasks: seq<Task>, command: Command): seq<Task> {
    match command
    case Add(title) => tasks + [NewTask(NextId(tasks), title)]
    case Done(id) => CompleteFirst(tasks, id)
    case _ => tasks
  }

  /** The task list after the lines, line `k` routed with `reply(k)`. */
  function Session(tasks: seq<Task>, lines: seq<string>, reply: nat -> Replies): seq<Task>
    decreases |lines|
  {
    if lines == [] then tasks
    else
      var k := |lines| - 1;
      Effect(Session(tasks, lines[..k], reply), RouteLine(lines[k], reply(k)))
  }

  lemma SessionStep(tasks: seq<Task>, lines: seq<string>, reply: nat -> Replies, i: nat)
    requires i < |lines|
    ensures Session(tasks, lines[..i + 1], reply)
            == Effect(Session(tasks, lines[..i], reply), RouteLine(lines[i], reply(i)))
  {
    assert lines[..i + 1][..i] == lines[..i];
  }

  /**
    * One command applied to the task list. An added task is a fresh, open task with no due
    * date and no subtasks under an id above every top-level id, placed last; a "done"
    * completes the first task with the id in preorder, or changes nothing when there is none.
    */
  method Apply(tasks: seq<Task>, command: Command) returns (updated: seq<Task>)
    ensures updated == Effect(tasks, command)
    ensures command.Add? ==> updated == tasks + [NewTask(NextId(tasks), command.title)]
    ensures command.Done? ==> ShapeOf(updated) == ShapeOf(tasks)
    ensures command.Done? && HasId(tasks, command.id) ==> MarksFirst(Preorder(tasks), Preorder(updated), command.id)
    ensures command.Done? && !HasId(tasks, command.id) ==> updated == tasks
    ensures !command.Add? && !command.Done? ==> updated == tasks
    ensures Titles(updated) == Titles(tasks) + NewTitles(command)
    ensures DistinctIds(tasks) ==> DistinctIds(updated)
  {
    match command {
      case Add(title) =>
        updated := Tasks.AddTask(tasks, title);
        assert updated == tasks + [NewTask(NextId(tasks), title)] by {
          assert updated[..|tasks|] == tasks;
        }
        AfterAdd(tasks, updated, title);
      case Done(id) =>
        var found;
        found, updated := MarkTaskDone(tasks, id);
        AfterMark(tasks, updated);
      case _ =>
        updated := tasks;
    }
  }

  /**
    * The loop over the lines read from standard input, from the current task list: each
    * line is routed and its effect on the tasks applied, until a line reads "exit".
    * Printing, speech and the chat replies leave the task list alone.
    */
  method RunSession(tasks: seq<Task>, lines: seq<string>, reply: nat -> Replies)
    returns (final: seq<Task>, handled: nat)
    ensures handled == FirstExit(lines)
    ensures final == Session(tasks, lines[..handled], reply)
    ensures Titles(final) == Titles(tasks) + AddedTitles(lines[..handled], reply)
    ensures DistinctIds(tasks) ==> DistinctIds(final)
  {
    final, handled := tasks, 0;
    while handled < |lines|
      invariant handled <= |lines|
      invariant handled <= FirstExit(lines)
      invariant final == Session(tasks, lines[..handled], reply)
      invariant Titles(final) == Titles(tasks) + AddedTitles(lines[..handled], reply)
      invariant DistinctIds(tasks) ==> DistinctIds(final)
    {
      if IsExit(lines[handled]) {
        break;
      }
      PassExit(lines, handled);
      var updated := Apply(final, RouteLine(lines[handled], reply(handled)));
      AddedTitlesStep(tasks, final, updated, lines, reply, handled);
      SessionStep(tasks, lines, reply, handled);
      final := updated;
      handled := handled + 1;
    }
    FirstExitIs(lines, handled);
  }
}

=== FILE: kotonoha.dfy ===
/**
  * The morning greeting of src/kotonoha.rs: a fixed message when every top-level task is
  * done, otherwise the number of top-level tasks still open.
  */
module Kotonoha {
  import opened Base
  import opened Text
  import opened Tasks

  const Morning: string := "おはようございます。"
  const AllDoneNote: string := "すべてのタスクが完了"
  const AllDoneGreeting: string := Morning + AllDoneNote + "しています。今日もいい日になりますように。"
  const CountPrefix: string := Morning + "現在 "
  const CountSuffix: string := " 件のタスクがあります。"

  /** The greeting for `count` open tasks. */
  function GreetingFor(count: nat): string {
    if count == 0 then AllDoneGreeting else CountPrefix + Decimal(count) + CountSuffix
  }

  /** `make_greeting_message`: counts the top-level tasks not done (subtasks are not looked at). */
  function MakeGreetingMessage(tasks: seq<Task>): string {
    GreetingFor(PendingCount(tasks))
  }

  /** With nothing open, including an empty list, the greeting says everything is complete. */
  lemma GreetingAllDone(tasks: seq<Task>)
    requires PendingCount(tasks) == 0
    ensures MakeGreetingMessage(tasks) == AllDoneGreeting
    ensures Contains(MakeGreetingMessage(tasks), AllDoneNote)
  {
    ContainsInfix(Morning, AllDoneNote, "しています。今日もいい日になりますように。");
  }

  /** With tasks open, the count can be read back from the digits between the fixed parts. */
  lemma GreetingCountReadsBack(tasks: seq<Task>)
    requires PendingCount(tasks) > 0
    ensures var m := MakeGreetingMessage(tasks);
            && StartsWith(m, CountPrefix) && EndsWith(m, CountSuffix)
            && |CountPrefix| < |m| - |CountSuffix|
            && AllDigits(m[|CountPrefix|..|m| - |CountSuffix|])
            && DigitsValue(m[|CountPrefix|..|m| - |CountSuffix|]) == PendingCount(tasks)
  {
    var n := PendingCount(tasks);
    var m := MakeGreetingMessage(tasks);
    assert m[..|CountPrefix|] == CountPrefix;
    assert m[|m| - |CountSuffix|..] == CountSuffix;
    assert m[|CountPrefix|..|m| - |CountSuffix|] == Decimal(n);
    DecimalValue(n);
  }

  /** The list of the unit test, one open task: the greeting says "現在 1 件のタスク". */
  lemma GreetingOnePending(t: Task)
    requires !t.done
    ensures MakeGreetingMessage([t]) == Morning + "現在 1 件のタスクがあります。"
  {
    assert PendingCount([t]) == 1;
  }

  /** Adding a done task anywhere in the list never changes the greeting. */
  lemma GreetingIgnoresDone(tasks: seq<Task>, i: nat, t: Task)
    requires i <= |tasks| && t.done
    ensures MakeGreetingMessage(tasks[..i] + [t] + tasks[i..]) == MakeGreetingMessage(tasks)
  {
    assert tasks == tasks[..i] + tasks[i..];
    PendingCountAppend(tasks[..i], tasks[i..]);
    PendingCountAppend(tasks[..i] + [t], tasks[i..]);
    PendingCountAppend(tasks[..i], [t]);
    assert [t][1..] == [];
  }

  /** Where the digits of a count greeting sit. */
  lemma CountGreetingDigits(n: nat)
    requires n > 0
    ensures |GreetingFor(n)| == |CountPrefix| + |Decimal(n)| + |CountSuffix|
    ensures GreetingFor(n)[|CountPrefix|..|CountPrefix| + |Decimal(n)|] == Decimal(n)
  {
  }

  /** A count greeting is never the all-done greeting: they part right after the salutation. */
  lemma CountGreetingIsNotAllDone(n: nat)
    requires n > 0
    ensures GreetingFor(n) != AllDoneGreeting
  {
    assert GreetingFor(n)[|Morning|] != AllDoneGreeting[|Morning|];
  }

  /** Distinct counts give distinct greetings, so the greeting depends on the count and on nothing else. */
  lemma GreetingDeterminesCount(a: nat, b: nat)
    ensures GreetingFor(a) == GreetingFor(b) <==> a == b
  {
    if a != b {
      if a == 0 {
        CountGreetingIsNotAllDone(b);
      } else if b == 0 {
        CountGreetingIsNotAllDone(a);
      } else {
        DecimalValue(a);
        DecimalValue(b);
        CountGreetingDigits(a);
        CountGreetingDigits(b);
      }
    }
  }

  /** Two task lists get the same greeting exactly when they have the same number of open top-level tasks. */
  lemma SameGreetingIffSameCount(xs: seq<Task>, ys: seq<Task>)
    ensures MakeGreetingMessage(xs) == MakeGreetingMessage(ys) <==> PendingCount(xs) == PendingCount(ys)
  {
    GreetingDeterminesCount(PendingCount(xs), PendingCount(ys));
  }
}

=== FILE: speech.dfy ===
/**
  * The speech arbitration queue of src/speech.rs: three FIFO tiers (User > Alert > Monologue)
  * drained by a single worker, which drops chatter (Monologue items) while the user has just
  * acted or while the previous monologue is still too recent.
  *
  * The tokio task, channel and mutexes are replaced by sequential calls: `Receive` is the
  * worker taking one request off the channel, `Step` is one pass of the worker loop that
  * finds an item, and time is an integer `now` passed in by the caller.
  */
module Speech {
  import opened Base

  datatype SpeechKind = User | Alert | Monologue

  datatype SpeechRequest = SpeechRequest(kind: SpeechKind, text: string)

  /** What one pass of the worker did with the head it selected. */
  datatype StepResult =
    | Idle                                             // all three tiers were empty
    | Spoke(kind: SpeechKind, text: string, ok: bool)  // handed to the speech backend, which reported `ok`
    | Dropped(text: string)                            // a monologue discarded by the suppression policy

  /** `Instant::duration_since`: the time from `since` to `now`, saturating at zero. */
  function Elapsed(since: int, now: int): nat {
    if since <= now then now - since else 0
  }

  /** The window that opened at `mark`, if any, has not yet lasted `window` at `now`. */
  predicate WindowOpen(mark: Option<int>, now: int, window: nat) {
    mark.Some? && Elapsed(mark.value, now) < window
  }

  /**
    * A dequeued monologue is discarded when the user acted less than `suppressAfterUser`
    * ago, or a monologue was spoken less than `cooldown` ago.
    */
  predicate MonologueSuppressed(lastUser: Option<int>, lastMono: Option<int>, now: int,
                                cooldown: nat, suppressAfterUser: nat) {
    WindowOpen(lastUser, now, suppressAfterUser) || WindowOpen(lastMono, now, cooldown)
  }

  /** The monologues that were spoken out of a run, and the last-spoken time afterwards. */
  datatype MonologueRun = MonologueRun(said: seq<string>, lastSpoken: Option<int>)

  /**
    * The fate of a Monologue tier served item after item at the single instant `now`,
    * with nothing of higher priority queued: each head is either discarded or spoken,
    * and each one spoken restarts the cooldown.
    */
  function RunMonologues(monos: seq<string>, lastUser: Option<int>, lastMono: Option<int>, now: int,
                         cooldown: nat, suppressAfterUser: nat): (r: MonologueRun)
    ensures |r.said| <= |monos|
    ensures r.said == [] ==> r.lastSpoken == lastMono
    ensures r.said != [] ==> r.lastSpoken == Some(now)
  {
    if monos == [] then MonologueRun([], lastMono)
    else if MonologueSuppressed(lastUser, lastMono, now, cooldown, suppressAfterUser) then
      RunMonologues(monos[1..], lastUser, lastMono, now, cooldown, suppressAfterUser)
    else
      var rest := RunMonologues(monos[1..], lastUser, Some(now), now, cooldown, suppressAfterUser);
      MonologueRun([monos[0]] + rest.said, rest.lastSpoken)
  }

  /** Right after a monologue was spoken, a positive cooldown silences every other one at that instant. */
  lemma {:induction false} SilentAfterSpeaking(monos: seq<string>, lastUser: Option<int>, now: int,
                                                cooldown: nat, suppressAfterUser: nat)
    requires cooldown > 0
    ensures RunMonologues(monos, lastUser, Some(now), now, cooldown, suppressAfterUser).said == []
  {
    if monos != [] {
      SilentAfterSpeaking(monos[1..], lastUser, now, cooldown, suppressAfterUser);
    }
  }

  /** With a positive cooldown, at most one monologue is spoken per instant, however many are queued. */
  lemma {:induction false} AtMostOneMonologuePerInstant(monos: seq<string>, lastUser: Option<int>,
                                                         lastMono: Option<int>, now: int,
                                                         cooldown: nat, suppressAfterUser: nat)
    requires cooldown > 0
    ensures |RunMonologues(monos, lastUser, lastMono, now, cooldown, suppressAfterUser).said| <= 1
  {
    if monos != [] {
      if MonologueSuppressed(lastUser, lastMono, now, cooldown, suppressAfterUser) {
        AtMostOneMonologuePerInstant(monos[1..], lastUser, lastMono, now, cooldown, suppressAfterUser);
      } else {
        SilentAfterSpeaking(monos[1..], lastUser, now, cooldown, suppressAfterUser);
      }
    }
  }

  /** With both windows zero, nothing is ever discarded: every monologue is spoken, in order. */
  lemma {:induction false} ZeroWindowsSpeakAll(monos: seq<string>, lastUser: Option<int>,
                                               lastMono: Option<int>, now: int)
    ensures RunMonologues(monos, lastUser, lastMono, now, 0, 0).said == monos
  {
    if monos != [] {
      ZeroWindowsSpeakAll(monos[1..], lastUser, Some(now), now);
    }
  }

  /** While the post-user window is open, every queued monologue is discarded and the cooldown is untouched. */
  lemma {:induction false} UserActionSilencesMonologues(monos: seq<string>, lastUser: Option<int>,
                                                        lastMono: Option<int>, now: int,
                                                        cooldown: nat, suppressAfterUser: nat)
    requires WindowOpen(lastUser, now, suppressAfterUser)
    ensures RunMonologues(monos, lastUser, lastMono, now, cooldown, suppressAfterUser)
            == MonologueRun([], lastMono)
  {
    if monos != [] {
      UserActionSilencesMonologues(monos[1..], lastUser, lastMono, now, cooldown, suppressAfterUser);
    }
  }

  /** The texts of the requests of one kind, in arrival order. */
  function TextsOf(reqs: seq<SpeechRequest>, kind: SpeechKind): seq<string> {
    if reqs == [] then []
    else
      var last := reqs[|reqs| - 1];
      TextsOf(reqs[..|reqs| - 1], kind) + (if last.kind == kind then [last.text] else [])
  }

  /** Some request in `reqs` is of kind User. */
  predicate HasUserRequest(reqs: seq<SpeechRequest>) {
    reqs != [] && (reqs[|reqs| - 1].kind == User || HasUserRequest(reqs[..|reqs| - 1]))
  }

  /** Receiving one more request adds at most its own text to each tier's list. */
  lemma TextsOfStep(reqs: seq<SpeechRequest>, i: nat)
    requires i < |reqs|
    ensures forall kind :: TextsOf(reqs[..i + 1], kind)
                           == TextsOf(reqs[..i], kind) + (if reqs[i].kind == kind then [reqs[i].text] else [])
    ensures HasUserRequest(reqs[..i + 1]) == (reqs[i].kind == User || HasUserRequest(reqs[..i]))
  {
    assert reqs[..i + 1][..i] == reqs[..i];
  }

  /** Taking the head off the first of three lists that are spoken one after the other. */
  lemma PopFront<T>(first: seq<T>, second: seq<T>, third: seq<T>)
    requires first != []
    ensures first + second + third == [first[0]] + (first[1..] + second + third)
  {
  }

  /** Every request lands in exactly one tier. */
  lemma {:induction false} TextsOfPartition(reqs: seq<SpeechRequest>)
    ensures |TextsOf(reqs, User)| + |TextsOf(reqs, Alert)| + |TextsOf(reqs, Monologue)| == |reqs|
  {
    if reqs != [] {
      TextsOfPartition(reqs[..|reqs| - 1]);
    }
  }

  class SpeechQueue {
    /** Minimum time between two spoken monologues. */
    const monologueCooldown: nat
    /** Time after a user action during which monologues are discarded. */
    const suppressMonologueAfterUser: nat

    var userQueue: seq<string>
    var alertQueue: seq<string>
    var monologueQueue: seq<string>
    /** When the worker last received a User request, or `MarkUserAction` was called. */
    var lastUserAction: Option<int>
    /** When a monologue was last spoken. */
    var lastMonologueSpoken: Option<int>
    /** Every text handed to the speech backend, in call order. */
    var spoken: seq<string>

    /** `SpeechQueue::spawn`: empty tiers and a default `State` (both timestamps unset). */
    constructor (monologueCooldown: nat, suppressMonologueAfterUser: nat)
      ensures this.monologueCooldown == monologueCooldown
      ensures this.suppressMonologueAfterUser == suppressMonologueAfterUser
      ensures userQueue == [] && alertQueue == [] && monologueQueue == []
      ensures lastUserAction == None && lastMonologueSpoken == None
      ensures spoken == []
    {
      this.monologueCooldown := monologueCooldown;
      this.suppressMonologueAfterUser := suppressMonologueAfterUser;
      userQueue, alertQueue, monologueQueue := [], [], [];
      lastUserAction, lastMonologueSpoken := None, None;
      spoken := [];
    }

    /** Number of items waiting in the three tiers. */
    function Pending(): nat
      reads this
    {
      |userQueue| + |alertQueue| + |monologueQueue|
    }

    /**
      * The worker takes one request off the channel: it goes to the back of its tier,
      * and a User request also records the user action at receipt time.
      */
    method Receive(kind: SpeechKind, text: string, now: int)
      modifies this
      ensures userQueue == if kind == User then old(userQueue) + [text] else old(userQueue)
      ensures alertQueue == if kind == Alert then old(alertQueue) + [text] else old(alertQueue)
      ensures monologueQueue == if kind == Monologue then old(monologueQueue) + [text] else old(monologueQueue)
      ensures lastUserAction == if kind == User then Some(now) else old(lastUserAction)
      ensures lastMonologueSpoken == old(lastMonologueSpoken) && spoken == old(spoken)
    {
      match kind
      case User =>
        lastUserAction := Some(now);
        userQueue := userQueue + [text];
      case Alert =>
        alertQueue := alertQueue + [text];
      case Monologue =>
        monologueQueue := monologueQueue + [text];
    }

    /** `mark_user_action`: record a user action without queueing anything. */
    method MarkUserAction(now: int)
      modifies this`lastUserAction
      ensures lastUserAction == Some(now)
    {
      lastUserAction := Some(now);
    }

    /**
      * One pass of the worker: pop the head of the highest non-empty tier; speak User and
      * Alert items unconditionally; speak a Monologue item only when neither window is
      * open, and then record `now` as the last monologue time. `speakOk` is the backend's
      * verdict, which is reported and changes nothing else.
      */
    method Step(now: int, speakOk: bool) returns (r: StepResult)
      modifies this
      ensures lastUserAction == old(lastUserAction)
      ensures old(Pending()) == 0 ==> r == Idle && unchanged(this)
      ensures old(Pending()) > 0 ==> !r.Idle? && Pending() == old(Pending()) - 1
      ensures old(userQueue) != [] ==>
        && r == Spoke(User, old(userQueue)[0], speakOk)
        && userQueue == old(userQueue)[1..]
        && alertQueue == old(alertQueue) && monologueQueue == old(monologueQueue)
        && spoken == old(spoken) + [old(userQueue)[0]]
        && lastMonologueSpoken == old(lastMonologueSpoken)
      ensures old(userQueue) == [] && old(alertQueue) != [] ==>
        && r == Spoke(Alert, old(alertQueue)[0], speakOk)
        && userQueue == [] && alertQueue == old(alertQueue)[1..]
        && monologueQueue == old(monologueQueue)
        && spoken == old(spoken) + [old(alertQueue)[0]]
        && lastMonologueSpoken == old(lastMonologueSpoken)
      ensures old(userQueue) == [] && old(alertQueue) == [] && old(monologueQueue) != [] ==>
        && userQueue == [] && alertQueue == []
        && monologueQueue == old(monologueQueue)[1..]
        && if MonologueSuppressed(old(lastUserAction), old(lastMonologueSpoken), now,
                                  monologueCooldown, suppressMonologueAfterUser)
           then r == Dropped(old(monologueQueue)[0])
                && spoken == old(spoken) && lastMonologueSpoken == old(lastMonologueSpoken)
           else r == Spoke(Monologue, old(monologueQueue)[0], speakOk)
                && spoken == old(spoken) + [old(monologueQueue)[0]]
                && lastMonologueSpoken == Some(now)
    {
      var kind: SpeechKind, text: string;
      if userQueue != [] {
        kind, text := User, userQueue[0];
        userQueue := userQueue[1..];
      } else if alertQueue != [] {
        kind, text := Alert, alertQueue[0];
        alertQueue := alertQueue[1..];
      } else if monologueQueue != [] {
        kind, text := Monologue, monologueQueue[0];
        monologueQueue := monologueQueue[1..];
      } else {
        return Idle;
      }
      if kind == Monologue {
        if WindowOpen(lastUserAction, now, suppressMonologueAfterUser) {
          return Dropped(text);
        }
        if WindowOpen(lastMonologueSpoken, now, monologueCooldown) {
          return Dropped(text);
        }
        lastMonologueSpoken := Some(now);
      }
      spoken := spoken + [text];
      r := Spoke(kind, text, speakOk);
    }

    /** What the monologue tier will yield if served at `now` with the current state. */
    ghost function MonologueOutlook(now: int): MonologueRun
      reads this
    {
      RunMonologues(monologueQueue, lastUserAction, lastMonologueSpoken, now,
                    monologueCooldown, suppressMonologueAfterUser)
    }

    /** Everything still to be spoken if the worker serves all tiers at `now` with no new arrivals. */
    ghost function Outlook(now: int): seq<string>
      reads this
    {
      userQueue + alertQueue + MonologueOutlook(now).said
    }

    /** The `try_recv` loop: receive every buffered request, in channel order, at `now`. */
    method ReceiveAll(backlog: seq<SpeechRequest>, now: int)
      modifies this
      ensures userQueue == old(userQueue) + TextsOf(backlog, User)
      ensures alertQueue == old(alertQueue) + TextsOf(backlog, Alert)
      ensures monologueQueue == old(monologueQueue) + TextsOf(backlog, Monologue)
      ensures lastUserAction == if HasUserRequest(backlog) then Some(now) else old(lastUserAction)
      ensures lastMonologueSpoken == old(lastMonologueSpoken) && spoken == old(spoken)
    {
      ghost var user0, alert0, mono0, last0 := userQueue, alertQueue, monologueQueue, lastUserAction;
      var i := 0;
      while i < |backlog|
        invariant i <= |backlog|
        invariant userQueue == user0 + TextsOf(backlog[..i], User)
        invariant alertQueue == alert0 + TextsOf(backlog[..i], Alert)
        invariant monologueQueue == mono0 + TextsOf(backlog[..i], Monologue)
        invariant lastUserAction == if HasUserRequest(backlog[..i]) then Some(now) else last0
        invariant lastMonologueSpoken == old(lastMonologueSpoken) && spoken == old(spoken)
      {
        var req := backlog[i];
        TextsOfStep(backlog, i);
        Associate(user0, TextsOf(backlog[..i], User), if req.kind == User then [req.text] else []);
        Associate(alert0, TextsOf(backlog[..i], Alert), if req.kind == Alert then [req.text] else []);
        Associate(mono0, TextsOf(backlog[..i], Monologue), if req.kind == Monologue then [req.text] else []);
        Receive(req.kind, req.text, now);
        i := i + 1;
      }
      assert backlog[..i] == backlog;
    }

    /**
      * Passes of the worker at `now` with nothing arriving: serve one item per pass until a
      * pass finds all three tiers empty. Item `k` served is spoken with backend verdict
      * `speakOk(k)`.
      */
    method ServeAll(now: int, speakOk: nat -> bool) returns (served: nat)
      modifies this
      ensures userQueue == [] && alertQueue == [] && monologueQueue == []
      ensures served == old(Pending())
      ensures spoken == old(spoken) + old(Outlook(now))
      ensures lastMonologueSpoken == old(MonologueOutlook(now)).lastSpoken
      ensures lastUserAction == old(lastUserAction)
    {
      served := 0;
      while true
        invariant Pending() + served == old(Pending())
        invariant spoken + Outlook(now) == old(spoken) + old(Outlook(now))
        invariant MonologueOutlook(now).lastSpoken == old(MonologueOutlook(now)).lastSpoken
        invariant lastUserAction == old(lastUserAction)
        decreases Pending()
      {
        ghost var before, queued := spoken, Outlook(now);
        ghost var u, a, mo := userQueue, alertQueue, MonologueOutlook(now).said;
        var r := Step(now, speakOk(served));
        if r.Idle? {
          break;
        }
        if r.Spoke? {
          assert queued == [r.text] + Outlook(now) by {
            if u != [] {
              PopFront(u, a, mo);
            } else if a != [] {
              PopFront(a, mo, []);
            } else {
              PopFront(mo, [], []);
            }
          }
          Associate(before, [r.text], Outlook(now));
        }
        served := served + 1;
      }
    }

    /**
      * The worker loop after the last sender is gone, with `backlog` still buffered in the
      * closed channel: the first pass drains the backlog into the tiers (later passes find
      * the channel empty), each pass then serves one item, and the loop ends only when a
      * pass finds all three tiers empty and the channel reports closed.
      */
    method RunUntilClosed(backlog: seq<SpeechRequest>, now: int, speakOk: nat -> bool) returns (served: nat)
      modifies this
      ensures userQueue == [] && alertQueue == [] && monologueQueue == []
      ensures served == old(Pending()) + |backlog|
      ensures lastUserAction == if HasUserRequest(backlog) then Some(now) else old(lastUserAction)
      ensures var run := RunMonologues(old(monologueQueue) + TextsOf(backlog, Monologue), lastUserAction,
                                       old(lastMonologueSpoken), now,
                                       monologueCooldown, suppressMonologueAfterUser);
              && spoken == old(spoken) + old(userQueue) + TextsOf(backlog, User)
                           + old(alertQueue) + TextsOf(backlog, Alert) + run.said
              && lastMonologueSpoken == run.lastSpoken
    {
      TextsOfPartition(backlog);
      ReceiveAll(backlog, now);
      served := ServeAll(now, speakOk);
    }
  }

  /** A User reply queued behind a monologue is spoken first (tests/speech_queue.rs, first test). */
  method UserPreemptsMonologue() returns (first: StepResult)
    ensures first == Spoke(User, "user", true)
  {
    var q := new SpeechQueue(0, 0);
    q.Receive(Monologue, "mono", 0);
    q.Receive(User, "user", 0);
    first := q.Step(0, true);
  }

  /** An Alert queued behind a monologue is spoken first (tests/speech_queue.rs, second test). */
  method AlertPreemptsMonologue() returns (first: StepResult)
    ensures first == Spoke(Alert, "alert", true)
  {
    var q := new SpeechQueue(0, 0);
    q.Receive(Monologue, "mono", 0);
    q.Receive(Alert, "alert", 0);
    first := q.Step(0, true);
  }

  /**
    * With a cooldown of 10, a monologue at time 0 is spoken, one at time 5 is discarded and
    * one at time 10 is spoken again; a failing backend does not change the outcome.
    */
  method MonologueCooldownScenario() returns (first: StepResult, second: StepResult, third: StepResult)
    ensures first == Spoke(Monologue, "a", false)
    ensures second == Dropped("b")
    ensures third == Spoke(Monologue, "c", true)
  {
    var q := new SpeechQueue(10, 0);
    q.Receive(Monologue, "a", 0);
    first := q.Step(0, false);
    q.Receive(Monologue, "b", 5);
    second := q.Step(5, true);
    q.Receive(Monologue, "c", 10);
    third := q.Step(10, true);
  }

  /**
    * Receiving a User request opens the post-user window: with a window of 10, the reply is
    * spoken and a monologue served 3 later is discarded, as is one after `MarkUserAction`.
    */
  method UserActionScenario() returns (reply: StepResult, chatter: StepResult, later: StepResult)
    ensures reply == Spoke(User, "hi", true)
    ensures chatter == Dropped("mm")
    ensures later == Dropped("zz")
  {
    var q := new SpeechQueue(0, 10);
    q.Receive(Monologue, "mm", 0);
    q.Receive(User, "hi", 0);
    reply := q.Step(0, true);
    chatter := q.Step(3, true);
    q.MarkUserAction(100);
    q.Receive(Monologue, "zz", 104);
    later := q.Step(104, true);
  }
}

=== FILE: tasks.dfy ===
/**
  * The task store of src/tasks.rs, on an in-memory forest: marking a task done, the
  * due-date walk, id allocation for a new task, the first-match title search and the
  * summary handed to the language model.
  */
module Tasks {
  import opened Base
  import opened Text

  /** The statuses src/tasks.rs writes. */
  datatype TaskStatus = NotStarted | Pending | Completed

  /**
    * A task and its subtasks. Ids are `u32` in the source; `dueDate` is a day number
    * (`NaiveDate`), compared as the source compares dates.
    */
  datatype Task = Task(id: nat, title: string, done: bool, dueDate: Option<int>,
                       status: TaskStatus, subtasks: seq<Task>)

  /** Every task of the forest, each before its subtasks, siblings in order: the visiting order of the recursive loops. */
  function Preorder(ts: seq<Task>): seq<Task>
    decreases ts
  {
    if ts == [] then [] else [ts[0]] + Preorder(ts[0].subtasks) + Preorder(ts[1..])
  }

  lemma {:induction false} PreorderAppend(a: seq<Task>, b: seq<Task>)
    ensures Preorder(a + b) == Preorder(a) + Preorder(b)
    decreases a
  {
    if a == [] {
      AppendEmpty(b);
      AppendEmpty(Preorder(b));
    } else {
      AppendTail(a, b);
      PreorderAppend(a[1..], b);
      Associate([a[0]] + Preorder(a[0].subtasks), Preorder(a[1..]), Preorder(b));
    }
  }

  lemma PreorderCut(ts: seq<Task>, i: nat)
    requires i <= |ts|
    ensures Preorder(ts) == Preorder(ts[..i]) + Preorder(ts[i..])
  {
    assert ts == ts[..i] + ts[i..];
    PreorderAppend(ts[..i], ts[i..]);
  }

  lemma PreorderUnfold(ts: seq<Task>)
    requires ts != []
    ensures Preorder(ts) == [ts[0]] + Preorder(ts[0].subtasks) + Preorder(ts[1..])
  {
  }

  /** The forest around its `i`-th tree: what comes before, the tree itself, what comes after. */
  lemma PreorderAround(ts: seq<Task>, i: nat)
    requires i < |ts|
    ensures Preorder(ts) == Preorder(ts[..i]) + [ts[i]] + Preorder(ts[i].subtasks) + Preorder(ts[i + 1..])
  {
    var P, t, R := Preorder(ts[..i]), ts[i], Preorder(ts[i + 1..]);
    var S := Preorder(t.subtasks);
    PreorderCut(ts, i);
    PreorderUnfold(ts[i..]);
    assert ts[i..][0] == t && ts[i..][1..] == ts[i + 1..];
    Regroup(P, [t], S, R);
  }

  /** The forest up to and including its `i`-th tree. */
  lemma PreorderPrefix(ts: seq<Task>, i: nat)
    requires i < |ts|
    ensures Preorder(ts[..i + 1]) == Preorder(ts[..i]) + [ts[i]] + Preorder(ts[i].subtasks)
  {
    var P, t := Preorder(ts[..i]), ts[i];
    var S := Preorder(t.subtasks);
    PreorderCut(ts[..i + 1], i);
    assert ts[..i + 1][..i] == ts[..i] && ts[..i + 1][i..] == [t];
    PreorderUnfold([t]);
    assert [t][1..] == [];
    Regroup(P, [t], S, []);
    assert P + [t] + S + [] == P + [t] + S;
  }

  /** A task without its subtasks: the part of a node that belongs to it alone. */
  function Head(t: Task): Task {
    t.(subtasks := [])
  }

  function Heads(s: seq<Task>): seq<Task> {
    seq(|s|, k requires 0 <= k < |s| => Head(s[k]))
  }

  /** The nesting of a forest with the content of every node erased. */
  datatype Shape = Node(children: seq<Shape>)

  function ShapeOf(ts: seq<Task>): seq<Shape>
    decreases ts
  {
    if ts == [] then [] else [Node(ShapeOf(ts[0].subtasks))] + ShapeOf(ts[1..])
  }

  lemma {:induction false} ShapeAppend(a: seq<Task>, b: seq<Task>)
    ensures ShapeOf(a + b) == ShapeOf(a) + ShapeOf(b)
    decreases a
  {
    if a == [] {
      AppendEmpty(b);
      AppendEmpty(ShapeOf(b));
    } else {
      AppendTail(a, b);
      ShapeAppend(a[1..], b);
      Associate([Node(ShapeOf(a[0].subtasks))], ShapeOf(a[1..]), ShapeOf(b));
    }
  }

  /** Replacing the `i`-th tree by one with the same nesting keeps the nesting of the forest. */
  lemma ShapeReplace(ts: seq<Task>, i: nat, x: Task)
    requires i < |ts| && ShapeOf(x.subtasks) == ShapeOf(ts[i].subtasks)
    ensures ShapeOf(ts[i := x]) == ShapeOf(ts)
  {
    assert ts == ts[..i] + [ts[i]] + ts[i + 1..];
    assert ts[i := x] == ts[..i] + [x] + ts[i + 1..];
    ShapeAppend(ts[..i] + [ts[i]], ts[i + 1..]);
    ShapeAppend(ts[..i], [ts[i]]);
    ShapeAppend(ts[..i] + [x], ts[i + 1..]);
    ShapeAppend(ts[..i], [x]);
  }

  /** Index of the first task with id `id`, or `|s|` when there is none. */
  function IndexOfId(s: seq<Task>, id: nat): (k: nat)
    ensures k <= |s|
    ensures k < |s| ==> s[k].id == id
    ensures forall j :: 0 <= j < k ==> s[j].id != id
  {
    if s == [] then 0 else if s[0].id == id then 0 else 1 + IndexOfId(s[1..], id)
  }

  /** Searching a concatenation: the first part wins when it holds a match. */
  lemma IndexOfIdAppend(a: seq<Task>, b: seq<Task>, id: nat)
    ensures IndexOfId(a + b, id)
            == if IndexOfId(a, id) < |a| then IndexOfId(a, id) else |a| + IndexOfId(b, id)
  {
    var k := IndexOfId(a + b, id);
    if IndexOfId(a, id) < |a| {
      assert (a + b)[IndexOfId(a, id)] == a[IndexOfId(a, id)];
    } else {
      var m := IndexOfId(b, id);
      if m < |b| {
        assert (a + b)[|a| + m] == b[m];
      }
      forall j | 0 <= j < k - |a| ensures b[j].id != id {
        assert (a + b)[|a| + j] == b[j];
      }
    }
  }

  /** Replacing an element in the second of four parts. */
  lemma UpdateSecond<T>(a: seq<T>, b: seq<T>, c: seq<T>, d: seq<T>, j: nat, y: T)
    requires j < |b|
    ensures (a + b + c + d)[|a| + j := y] == a + b[j := y] + c + d
  {
  }

  /** Replacing an element in the third of four parts. */
  lemma UpdateThird<T>(a: seq<T>, b: seq<T>, c: seq<T>, d: seq<T>, j: nat, y: T)
    requires j < |c|
    ensures (a + b + c + d)[|a| + |b| + j := y] == a + b + c[j := y] + d
  {
  }

  lemma HeadsAppend(a: seq<Task>, b: seq<Task>)
    ensures Heads(a + b) == Heads(a) + Heads(b)
  {
  }

  lemma HeadsAround(p: seq<Task>, t: Task, s: seq<Task>, r: seq<Task>)
    ensures Heads(p + [t] + s + r) == Heads(p) + [Head(t)] + Heads(s) + Heads(r)
  {
    HeadsAppend(p + [t] + s, r);
    HeadsAppend(p + [t], s);
    HeadsAppend(p, [t]);
  }

  /** Where the first task with a given id sits, when it is not before the `i`-th tree. */
  lemma IndexOfIdAround(p: seq<Task>, t: Task, s: seq<Task>, r: seq<Task>, id: nat)
    requires IndexOfId(p, id) == |p|
    ensures t.id == id ==> IndexOfId(p + [t] + s + r, id) == |p|
    ensures t.id != id && IndexOfId(s, id) < |s| ==> IndexOfId(p + [t] + s + r, id) == |p| + 1 + IndexOfId(s, id)
    ensures t.id != id ==> IndexOfId(p + [t] + s, id) == |p| + 1 + IndexOfId(s, id)
  {
    IndexOfIdAppend(p, [t], id);
    IndexOfIdAppend(p + [t], s, id);
    IndexOfIdAppend(p + [t] + s, r, id);
  }

  /** The task as `mark_task_done` leaves it. */
  function MarkedComplete(t: Task): Task {
    t.(done := true, status := Completed)
  }

  /** What completing the first node with id `id` does to the sequence of heads. */
  ghost predicate MarksFirst(nodes: seq<Task>, after: seq<Task>, id: nat) {
    var k := IndexOfId(nodes, id);
    k < |nodes| && Heads(after) == Heads(nodes)[k := MarkedComplete(Head(nodes[k]))]
  }

  /** The forest with its `i`-th tree replaced. */
  lemma PreorderReplace(ts: seq<Task>, i: nat, x: Task)
    requires i < |ts|
    ensures Preorder(ts[i := x]) == Preorder(ts[..i]) + [x] + Preorder(x.subtasks) + Preorder(ts[i + 1..])
  {
    var updated := ts[i := x];
    PreorderAround(updated, i);
    assert updated[..i] == ts[..i] && updated[i + 1..] == ts[i + 1..];
  }

  /** The heads after replacing a root whose own head is completed. */
  lemma HeadsRoot(p: seq<Task>, t: Task, x: Task, s: seq<Task>, r: seq<Task>)
    requires Head(x) == MarkedComplete(Head(t))
    ensures (p + [t] + s + r)[|p|] == t
    ensures Heads(p + [x] + s + r) == Heads(p + [t] + s + r)[|p| := MarkedComplete(Head(t))]
  {
    HeadsAround(p, t, s, r);
    HeadsAround(p, x, s, r);
    UpdateSecond(Heads(p), [Head(t)], Heads(s), Heads(r), 0, MarkedComplete(Head(t)));
    assert [Head(t)][0 := MarkedComplete(Head(t))] == [Head(x)];
  }

  /** The heads after replacing the subtasks of a root whose own head is kept. */
  lemma HeadsInside(p: seq<Task>, t: Task, x: Task, s: seq<Task>, s2: seq<Task>, r: seq<Task>, j: nat, y: Task)
    requires Head(x) == Head(t) && j < |s|
    requires Heads(s2) == Heads(s)[j := y]
    ensures (p + [t] + s + r)[|p| + 1 + j] == s[j]
    ensures Heads(p + [x] + s2 + r) == Heads(p + [t] + s + r)[|p| + 1 + j := y]
  {
    HeadsAround(p, t, s, r);
    HeadsAround(p, x, s2, r);
    UpdateThird(Heads(p), [Head(t)], Heads(s), Heads(r), j, y);
  }

  /** Completing the `i`-th tree's root, when nothing before it has the id. */
  lemma MarkRoot(tasks: seq<Task>, i: nat, id: nat)
    requires i < |tasks| && tasks[i].id == id
    requires IndexOfId(Preorder(tasks[..i]), id) == |Preorder(tasks[..i])|
    ensures MarksFirst(Preorder(tasks), Preorder(tasks[i := MarkedComplete(tasks[i])]), id)
  {
    var t := tasks[i];
    var x := MarkedComplete(t);
    var P, S, R := Preorder(tasks[..i]), Preorder(t.subtasks), Preorder(tasks[i + 1..]);
    PreorderAround(tasks, i);
    PreorderReplace(tasks, i, x);
    IndexOfIdAround(P, t, S, R, id);
    HeadsRoot(P, t, x, S, R);
  }

  /** Completing a node inside the `i`-th tree, when nothing before it has the id. */
  lemma MarkInside(tasks: seq<Task>, i: nat, id: nat, sub: seq<Task>)
    requires i < |tasks| && tasks[i].id != id
    requires IndexOfId(Preorder(tasks[..i]), id) == |Preorder(tasks[..i])|
    requires MarksFirst(Preorder(tasks[i].subtasks), Preorder(sub), id)
    ensures MarksFirst(Preorder(tasks), Preorder(tasks[i := tasks[i].(subtasks := sub)]), id)
  {
    var t := tasks[i];
    var x := t.(subtasks := sub);
    var P, S, R := Preorder(tasks[..i]), Preorder(t.subtasks), Preorder(tasks[i + 1..]);
    var j := IndexOfId(S, id);
    PreorderAround(tasks, i);
    PreorderReplace(tasks, i, x);
    IndexOfIdAround(P, t, S, R, id);
    HeadsInside(P, t, x, S, Preorder(sub), R, j, MarkedComplete(Head(S[j])));
  }

  /** Passing over the `i`-th tree when neither its root nor its subtasks have the id. */
  lemma MarkPass(tasks: seq<Task>, i: nat, id: nat)
    requires i < |tasks| && tasks[i].id != id
    requires IndexOfId(Preorder(tasks[..i]), id) == |Preorder(tasks[..i])|
    requires IndexOfId(Preorder(tasks[i].subtasks), id) == |Preorder(tasks[i].subtasks)|
    ensures IndexOfId(Preorder(tasks[..i + 1]), id) == |Preorder(tasks[..i + 1])|
  {
    PreorderPrefix(tasks, i);
    IndexOfIdAround(Preorder(tasks[..i]), tasks[i], Preorder(tasks[i].subtasks), [], id);
  }

  /** Some node of the forest has id `id`. */
  predicate HasId(ts: seq<Task>, id: nat) {
    IndexOfId(Preorder(ts), id) < |Preorder(ts)|
  }

  /**
    * The forest `mark_task_done` leaves, as a value: the first root with the id is completed,
    * else the first match inside that root's subtasks, else the search goes on to the later roots.
    */
  function CompleteFirst(ts: seq<Task>, id: nat): seq<Task>
    decreases ts
  {
    if ts == [] then []
    else if ts[0].id == id then [MarkedComplete(ts[0])] + ts[1..]
    else if HasId(ts[0].subtasks, id) then [ts[0].(subtasks := CompleteFirst(ts[0].subtasks, id))] + ts[1..]
    else [ts[0]] + CompleteFirst(ts[1..], id)
  }

  /** Passing over a tree without the id leaves it as it is. */
  lemma CompleteFirstSkip(ts: seq<Task>, i: nat, id: nat)
    requires i < |ts| && ts[i].id != id && !HasId(ts[i].subtasks, id)
    ensures ts[..i] + CompleteFirst(ts[i..], id) == ts[..i + 1] + CompleteFirst(ts[i + 1..], id)
  {
    assert ts[i..][0] == ts[i] && ts[i..][1..] == ts[i + 1..];
    assert ts[..i + 1] == ts[..i] + [ts[i]];
    Associate(ts[..i], [ts[i]], CompleteFirst(ts[i + 1..], id));
  }

  /** Completing the `i`-th tree, at its root or inside it, replaces that tree and nothing else. */
  lemma CompleteFirstAt(ts: seq<Task>, i: nat, id: nat, x: Task)
    requires i < |ts|
    requires ts[i].id == id ==> x == MarkedComplete(ts[i])
    requires ts[i].id != id ==> HasId(ts[i].subtasks, id) && x == ts[i].(subtasks := CompleteFirst(ts[i].subtasks, id))
    ensures ts[..i] + CompleteFirst(ts[i..], id) == ts[i := x]
  {
    assert ts[i..][0] == ts[i] && ts[i..][1..] == ts[i + 1..];
    assert ts[i := x] == ts[..i] + ([x] + ts[i + 1..]);
  }

  /** Replacing a tree by one with the same id and title keeps the top-level ids and titles. */
  lemma ReplaceKeepsIdsTitles(ts: seq<Task>, i: nat, x: Task)
    requires i < |ts| && x.id == ts[i].id && x.title == ts[i].title
    ensures |ts[i := x]| == |ts|
    ensures forall k :: 0 <= k < |ts| ==> ts[i := x][k].id == ts[k].id && ts[i := x][k].title == ts[k].title
  {
  }

  /**
    * `mark_task_done`: visit the forest in preorder and complete the first task with id
    * `taskId`. `found` tells whether there was one; only that node changes, and the
    * forest keeps its nesting.
    */
  method MarkTaskDone(tasks: seq<Task>, taskId: nat) returns (found: bool, updated: seq<Task>)
    ensures found <==> IndexOfId(Preorder(tasks), taskId) < |Preorder(tasks)|
    ensures found ==> MarksFirst(Preorder(tasks), Preorder(updated), taskId)
    ensures !found ==> updated == tasks
    ensures ShapeOf(updated) == ShapeOf(tasks)
    ensures |updated| == |tasks|
    ensures forall i :: 0 <= i < |tasks| ==> updated[i].id == tasks[i].id && updated[i].title == tasks[i].title
    ensures updated == CompleteFirst(tasks, taskId)
    decreases tasks
  {
    assert tasks[..0] == [] && tasks[0..] == tasks;
    for i := 0 to |tasks|
      invariant IndexOfId(Preorder(tasks[..i]), taskId) == |Preorder(tasks[..i])|
      invariant CompleteFirst(tasks, taskId) == tasks[..i] + CompleteFirst(tasks[i..], taskId)
    {
      var t := tasks[i];
      if t.id == taskId {
        var x := MarkedComplete(t);
        updated := tasks[i := x];
        found := true;
        MarkRoot(tasks, i, taskId);
        ShapeReplace(tasks, i, x);
        CompleteFirstAt(tasks, i, taskId, x);
        ReplaceKeepsIdsTitles(tasks, i, x);
        return;
      }
      var subFound, subUpdated := MarkTaskDone(t.subtasks, taskId);
      if subFound {
        var x := t.(subtasks := subUpdated);
        updated := tasks[i := x];
        found := true;
        MarkInside(tasks, i, taskId, subUpdated);
        ShapeReplace(tasks, i, x);
        CompleteFirstAt(tasks, i, taskId, x);
        ReplaceKeepsIdsTitles(tasks, i, x);
        return;
      }
      MarkPass(tasks, i, taskId);
      CompleteFirstSkip(tasks, i, taskId);
    }
    found, updated := false, tasks;
    assert tasks[..|tasks|] == tasks && tasks[|tasks|..] == [];
  }

  /** Not done, and due on a day from `today` to `limit`, both included. */
  predicate DueBetween(t: Task, today: int, limit: int) {
    !t.done && t.dueDate.Some? && today <= t.dueDate.value <= limit
  }

  /** The tasks of `s` that are due between `today` and `limit`, in the order of `s`. */
  function DueTasks(s: seq<Task>, today: int, limit: int): (r: seq<Task>)
    ensures |r| <= |s|
  {
    if s == [] then []
    else (if DueBetween(s[0], today, limit) then [s[0]] else []) + DueTasks(s[1..], today, limit)
  }

  lemma {:induction false} DueTasksAppend(a: seq<Task>, b: seq<Task>, today: int, limit: int)
    ensures DueTasks(a + b, today, limit) == DueTasks(a, today, limit) + DueTasks(b, today, limit)
  {
    if a == [] {
      AppendEmpty(b);
      AppendEmpty(DueTasks(b, today, limit));
    } else {
      AppendTail(a, b);
      DueTasksAppend(a[1..], b, today, limit);
      Associate(if DueBetween(a[0], today, limit) then [a[0]] else [], DueTasks(a[1..], today, limit), DueTasks(b, today, limit));
    }
  }

  /** The filter keeps exactly the due tasks. */
  lemma {:induction false} DueTasksMembers(s: seq<Task>, today: int, limit: int, t: Task)
    ensures t in DueTasks(s, today, limit) <==> t in s && DueBetween(t, today, limit)
  {
    if s != [] {
      DueTasksMembers(s[1..], today, limit, t);
      assert s == [s[0]] + s[1..];
    }
  }

  /** What the `i`-th tree adds to the due tasks of the trees before it. */
  lemma WalkStep(tasks: seq<Task>, i: nat, today: int, limit: int)
    requires i < |tasks|
    ensures DueTasks(Preorder(tasks[..i + 1]), today, limit)
            == DueTasks(Preorder(tasks[..i]), today, limit)
               + (if DueBetween(tasks[i], today, limit) then [tasks[i]] else [])
               + DueTasks(Preorder(tasks[i].subtasks), today, limit)
  {
    PreorderPrefix(tasks, i);
    DueTasksAppend(Preorder(tasks[..i]) + [tasks[i]], Preorder(tasks[i].subtasks), today, limit);
    DueTasksAppend(Preorder(tasks[..i]), [tasks[i]], today, limit);
    assert [tasks[i]][1..] == [];
  }

  /** Nothing is due in a window that ends before it starts. */
  lemma {:induction false} DueTasksEmptyWindow(s: seq<Task>, today: int, limit: int)
    requires limit < today
    ensures DueTasks(s, today, limit) == []
  {
    if s != [] {
      DueTasksEmptyWindow(s[1..], today, limit);
    }
  }

  /**
    * `walk`: append to `out` every task of the forest, in preorder, that is not done and
    * is due between `today` and `limit`; subtasks of done tasks are visited too.
    */
  method Walk(out: seq<Task>, tasks: seq<Task>, today: int, limit: int) returns (result: seq<Task>)
    ensures result == out + DueTasks(Preorder(tasks), today, limit)
    decreases tasks
  {
    result := out;
    for i := 0 to |tasks|
      invariant result == out + DueTasks(Preorder(tasks[..i]), today, limit)
    {
      var t := tasks[i];
      if !t.done {
        if t.dueDate.Some? {
          var due := t.dueDate.value;
          if due >= today && due <= limit {
            result := result + [t];
          }
        }
      }
      ghost var own := if DueBetween(t, today, limit) then [t] else [];
      assert result == out + DueTasks(Preorder(tasks[..i]), today, limit) + own;
      result := Walk(result, t.subtasks, today, limit);
      WalkStep(tasks, i, today, limit);
      Regroup(out, DueTasks(Preorder(tasks[..i]), today, limit), own, DueTasks(Preorder(t.subtasks), today, limit));
    }
    assert tasks[..|tasks|] == tasks;
  }

  /**
    * `find_due_within_days`, with today's date as a parameter: the limit is
    * `today + withinDays`, so a negative `withinDays` finds nothing.
    */
  method FindDueWithinDays(tasks: seq<Task>, today: int, withinDays: int) returns (due: seq<Task>)
    ensures due == DueTasks(Preorder(tasks), today, today + withinDays)
    ensures forall t :: t in due <==> t in Preorder(tasks) && DueBetween(t, today, today + withinDays)
    ensures withinDays < 0 ==> due == []
  {
    var limit := today + withinDays;
    due := Walk([], tasks, today, limit);
    forall t ensures t in due <==> t in Preorder(tasks) && DueBetween(t, today, limit) {
      DueTasksMembers(Preorder(tasks), today, limit, t);
    }
    if withinDays < 0 {
      DueTasksEmptyWindow(Preorder(tasks), today, limit);
    }
  }

  /** The largest top-level id, 0 for an empty list. */
  function MaxTopLevelId(tasks: seq<Task>): (m: nat)
    ensures forall i :: 0 <= i < |tasks| ==> tasks[i].id <= m
    ensures tasks != [] ==> exists i :: 0 <= i < |tasks| && tasks[i].id == m
    ensures tasks == [] ==> m == 0
  {
    if tasks == [] then 0
    else
      var m := MaxTopLevelId(tasks[..|tasks| - 1]);
      var last := tasks[|tasks| - 1].id;
      if last > m then last else m
  }

  /**
    * The id `add_task` gives a new task: one more than the largest top-level id, so it
    * is above every top-level id; subtasks are not looked at.
    */
  function NextId(tasks: seq<Task>): (id: nat)
    ensures forall i :: 0 <= i < |tasks| ==> tasks[i].id < id
    ensures id == 1 || exists i :: 0 <= i < |tasks| && tasks[i].id + 1 == id
    ensures tasks == [] ==> id == 1
  {
    MaxTopLevelId(tasks) + 1
  }

  /** The task `add_task` creates. */
  function NewTask(id: nat, title: string): Task {
    Task(id, title, false, None, NotStarted, [])
  }

  /**
    * `add_task` on the list: push a fresh, not-done task with no due date and no subtasks
    * at the end, under an id above every top-level id; the existing tasks stay as they are.
    */
  method AddTask(tasks: seq<Task>, title: string) returns (updated: seq<Task>)
    ensures |updated| == |tasks| + 1 && updated[..|tasks|] == tasks
    ensures updated[|tasks|] == NewTask(NextId(tasks), title)
    ensures forall i :: 0 <= i < |tasks| ==> updated[i].id < updated[|tasks|].id
  {
    var newId := NextId(tasks);
    updated := tasks + [NewTask(newId, title)];
  }

  /**
    * The new id can already belong to a subtask, and a later `mark_task_done` on that id
    * then completes the subtask, which comes first in preorder, not the new task.
    */
  lemma NextIdCanRepeatSubtaskId()
    ensures var tasks := [Task(1, "a", false, None, NotStarted, [NewTask(2, "b")])];
            var added := tasks + [NewTask(NextId(tasks), "c")];
            && NextId(tasks) == 2
            && |Preorder(added)| == 3
            && IndexOfId(Preorder(added), 2) == 1
            && Preorder(added)[1].title == "b"
  {
    var tasks := [Task(1, "a", false, None, NotStarted, [NewTask(2, "b")])];
    assert Preorder(tasks[0].subtasks) == [NewTask(2, "b")];
    assert Preorder(tasks) == [tasks[0], NewTask(2, "b")];
    var added := tasks + [NewTask(NextId(tasks), "c")];
    PreorderAppend(tasks, [NewTask(2, "c")]);
  }

  /** A task the title search accepts: not done, and its lower-cased title contains `needle`. */
  predicate OpenTitleMatch(t: Task, needle: string) {
    Contains(ToLower(t.title), needle) && !t.done
  }

  /** Index of the first task the title search accepts, or `|s|` when there is none. */
  function IndexOfOpenMatch(s: seq<Task>, needle: string): (k: nat)
    ensures k <= |s|
    ensures k < |s| ==> OpenTitleMatch(s[k], needle)
    ensures forall j :: 0 <= j < k ==> !OpenTitleMatch(s[j], needle)
  {
    if s == [] then 0
    else if OpenTitleMatch(s[0], needle) then 0
    else 1 + IndexOfOpenMatch(s[1..], needle)
  }

  lemma IndexOfOpenMatchAppend(a: seq<Task>, b: seq<Task>, needle: string)
    ensures IndexOfOpenMatch(a + b, needle)
            == if IndexOfOpenMatch(a, needle) < |a| then IndexOfOpenMatch(a, needle)
               else |a| + IndexOfOpenMatch(b, needle)
  {
    var k := IndexOfOpenMatch(a + b, needle);
    var i := IndexOfOpenMatch(a, needle);
    if i < |a| {
      assert (a + b)[i] == a[i];
    } else {
      var m := IndexOfOpenMatch(b, needle);
      if m < |b| {
        assert (a + b)[|a| + m] == b[m];
      }
      forall j | 0 <= j < k - |a| ensures !OpenTitleMatch(b[j], needle) {
        assert (a + b)[|a| + j] == b[j];
      }
    }
  }

  /** Where the first match of a forest sits: its first root, inside that root's subtasks, or further on. */
  lemma OpenMatchUnfold(subtasks: seq<Task>, needle: string)
    requires subtasks != []
    ensures var t, W, R := subtasks[0], Preorder(subtasks[0].subtasks), Preorder(subtasks[1..]);
            var nodes, m, n := Preorder(subtasks), IndexOfOpenMatch(W, needle), IndexOfOpenMatch(R, needle);
            && (OpenTitleMatch(t, needle) ==> IndexOfOpenMatch(nodes, needle) == 0 && nodes[0] == t)
            && (!OpenTitleMatch(t, needle) && m < |W| ==>
                  IndexOfOpenMatch(nodes, needle) == 1 + m && nodes[1 + m] == W[m])
            && (!OpenTitleMatch(t, needle) && m == |W| ==>
                  IndexOfOpenMatch(nodes, needle) == 1 + |W| + n && |nodes| == 1 + |W| + |R|
                  && (n < |R| ==> nodes[1 + |W| + n] == R[n]))
  {
    var t, W, R := subtasks[0], Preorder(subtasks[0].subtasks), Preorder(subtasks[1..]);
    PreorderUnfold(subtasks);
    IndexOfOpenMatchAppend([t], W, needle);
    IndexOfOpenMatchAppend([t] + W, R, needle);
  }

  /** The id of the first task of `nodes` the title search accepts. */
  function FirstOpenMatch(nodes: seq<Task>, needle: string): Option<nat> {
    var k := IndexOfOpenMatch(nodes, needle);
    if k < |nodes| then Some(nodes[k].id) else None
  }

  /**
    * `find_in_subtasks`: a task accepted by the title search, else the same search in its
    * subtasks, else in its later siblings (`needle` is already lower-cased by the caller).
    */
  function FindInSubtasks(subtasks: seq<Task>, needle: string): Option<nat>
    decreases subtasks
  {
    if subtasks == [] then None
    else if OpenTitleMatch(subtasks[0], needle) then Some(subtasks[0].id)
    else match FindInSubtasks(subtasks[0].subtasks, needle)
      case Some(id) => Some(id)
      case None => FindInSubtasks(subtasks[1..], needle)
  }

  /** The recursive search finds the first accepted task of the forest in preorder. */
  lemma {:induction false} FindInSubtasksFirst(subtasks: seq<Task>, needle: string)
    ensures FindInSubtasks(subtasks, needle) == FirstOpenMatch(Preorder(subtasks), needle)
    decreases subtasks
  {
    if subtasks != [] {
      OpenMatchUnfold(subtasks, needle);
      if !OpenTitleMatch(subtasks[0], needle) {
        FindInSubtasksFirst(subtasks[0].subtasks, needle);
        if FindInSubtasks(subtasks[0].subtasks, needle).None? {
          FindInSubtasksFirst(subtasks[1..], needle);
        }
      }
    }
  }

  /**
    * `find_task_id_by_title_fuzzy`: lower-case the input, then search the whole forest in
    * preorder (the top-level loop does what `find_in_subtasks` does one level down).
    * None exactly when no not-done task's title contains the input.
    */
  function FindTaskIdByTitleFuzzy(tasks: seq<Task>, input: string): (r: Option<nat>)
    ensures r.None? <==> forall t :: t in Preorder(tasks) ==> !OpenTitleMatch(t, ToLower(input))
    ensures r.Some? ==> exists k :: 0 <= k < |Preorder(tasks)|
                                    && Preorder(tasks)[k].id == r.value
                                    && OpenTitleMatch(Preorder(tasks)[k], ToLower(input))
                                    && forall j :: 0 <= j < k ==> !OpenTitleMatch(Preorder(tasks)[j], ToLower(input))
  {
    var r := FindInSubtasks(tasks, ToLower(input));
    FindInSubtasksFirst(tasks, ToLower(input));
    assert r.None? ==> forall t :: t in Preorder(tasks) ==> !OpenTitleMatch(t, ToLower(input)) by {
      var nodes := Preorder(tasks);
      if IndexOfOpenMatch(nodes, ToLower(input)) == |nodes| {
        forall t | t in nodes ensures !OpenTitleMatch(t, ToLower(input)) {
          var j :| 0 <= j < |nodes| && nodes[j] == t;
        }
      }
    }
    r
  }

  /** Number of top-level tasks not done; subtasks are not counted. */
  function PendingCount(tasks: seq<Task>): nat {
    if tasks == [] then 0 else (if tasks[0].done then 0 else 1) + PendingCount(tasks[1..])
  }

  lemma {:induction false} PendingCountAppend(a: seq<Task>, b: seq<Task>)
    ensures PendingCount(a + b) == PendingCount(a) + PendingCount(b)
  {
    if a == [] {
      AppendEmpty(b);
    } else {
      AppendTail(a, b);
      PendingCountAppend(a[1..], b);
    }
  }

  const NoTasksSummary: string := "現在、登録されているタスクはありません。"
  const SummaryHeader: string := "現在の未完了タスク一覧:"

  /** One line "・title" per top-level task that is not done, in list order. */
  function OpenLines(tasks: seq<Task>): seq<string> {
    if tasks == [] then []
    else (if tasks[0].done then [] else ["・" + tasks[0].title]) + OpenLines(tasks[1..])
  }

  /** The summary lists as many lines as the greeting counts pending tasks. */
  lemma {:induction false} OpenLinesCount(tasks: seq<Task>)
    ensures |OpenLines(tasks)| == PendingCount(tasks)
  {
    if tasks != [] {
      OpenLinesCount(tasks[1..]);
    }
  }

  /**
    * `summarize_tasks_for_prompt`: a fixed sentence for an empty list; otherwise the header,
    * a newline and the open lines joined by newlines.
    */
  function SummarizeTasksForPrompt(tasks: seq<Task>): string {
    if tasks == [] then NoTasksSummary
    else SummaryHeader + "\n" + Join(OpenLines(tasks), "\n")
  }

  /** The fixed sentence appears exactly for an empty list; any other list starts with the header line. */
  lemma SummaryEmptyIff(tasks: seq<Task>)
    ensures tasks == [] <==> SummarizeTasksForPrompt(tasks) == NoTasksSummary
    ensures tasks != [] ==> StartsWith(SummarizeTasksForPrompt(tasks), SummaryHeader + "\n")
  {
    if tasks != [] {
      var r := SummarizeTasksForPrompt(tasks);
      assert r[2] == SummaryHeader[2] != NoTasksSummary[2];
    }
  }

  /** A list whose tasks are all done still gets the header, followed by an empty list. */
  lemma {:induction false} SummaryAllDone(tasks: seq<Task>)
    requires tasks != [] && PendingCount(tasks) == 0
    ensures SummarizeTasksForPrompt(tasks) == SummaryHeader + "\n"
  {
    OpenLinesCount(tasks);
  }

  /** No open line holds a newline when no open title does. */
  lemma {:induction false} OpenLinesHaveNoNewline(tasks: seq<Task>)
    requires forall t :: t in tasks && !t.done ==> '\n' !in t.title
    ensures forall i :: 0 <= i < |OpenLines(tasks)| ==> '\n' !in OpenLines(tasks)[i]
  {
    if tasks != [] {
      assert forall t :: t in tasks[1..] ==> t in tasks;
      OpenLinesHaveNoNewline(tasks[1..]);
      var head := if tasks[0].done then [] else ["・" + tasks[0].title];
      assert OpenLines(tasks) == head + OpenLines(tasks[1..]);
      forall i | 0 <= i < |OpenLines(tasks)| ensures '\n' !in OpenLines(tasks)[i] {
        if i >= |head| {
          assert OpenLines(tasks)[i] == OpenLines(tasks[1..])[i - |head|];
        }
      }
    }
  }

  /** An open task gives at least one open line. */
  lemma SomeOpenLine(tasks: seq<Task>)
    requires exists t :: t in tasks && !t.done
    ensures tasks != [] && OpenLines(tasks) != []
  {
    var t :| t in tasks && !t.done;
    var i :| 0 <= i < |tasks| && tasks[i] == t;
    PendingCountPositive(tasks, i);
    OpenLinesCount(tasks);
  }

  lemma {:induction false} PendingCountPositive(tasks: seq<Task>, i: nat)
    requires i < |tasks| && !tasks[i].done
    ensures PendingCount(tasks) > 0
  {
    if i > 0 {
      PendingCountPositive(tasks[1..], i - 1);
    }
  }

  lemma HeaderHasNoNewline()
    ensures '\n' !in SummaryHeader
  {
    forall k | 0 <= k < |SummaryHeader| ensures SummaryHeader[k] != '\n' {
    }
  }

  /** The header line, then the given lines: splitting at newlines takes them apart again. */
  lemma HeaderThenLines(lines: seq<string>)
    requires lines != []
    requires forall i :: 0 <= i < |lines| ==> '\n' !in lines[i]
    ensures Split(SummaryHeader + "\n" + Join(lines, "\n"), '\n') == [SummaryHeader] + lines
  {
    HeaderHasNoNewline();
    SplitAfterHead(SummaryHeader, lines, '\n');
  }

  lemma OpenLinesReadBack(tasks: seq<Task>)
    requires tasks != [] && OpenLines(tasks) != []
    requires forall i :: 0 <= i < |OpenLines(tasks)| ==> '\n' !in OpenLines(tasks)[i]
    ensures Split(SummarizeTasksForPrompt(tasks), '\n') == [SummaryHeader] + OpenLines(tasks)
  {
    HeaderThenLines(OpenLines(tasks));
  }

  /**
    * Reading the summary back line by line gives the header and then one line per open
    * task, as long as at least one task is open and no open title holds a newline.
    */
  lemma SummaryReadsBack(tasks: seq<Task>)
    requires exists t :: t in tasks && !t.done
    requires forall t :: t in tasks && !t.done ==> '\n' !in t.title
    ensures Split(SummarizeTasksForPrompt(tasks), '\n') == [SummaryHeader] + OpenLines(tasks)
  {
    SomeOpenLine(tasks);
    OpenLinesHaveNoNewline(tasks);
    OpenLinesReadBack(tasks);
  }
}

=== FILE: text.dfy ===
/**
  * The string operations of Rust's `str` that the assistant relies on, on `seq<char>`:
  * `starts_with`, `contains`, `find`, `trim`, ASCII `to_lowercase`, `join`, `split`,
  * formatting of a count with `{}` and `parse::<u32>()`.
  */
module Text {
  import opened Base

  /** `s` starts with `p` (`str::starts_with`). */
  predicate StartsWith(s: string, p: string) {
    |p| <= |s| && s[..|p|] == p
  }

  /** `s` ends with `p` (`str::ends_with`). */
  predicate EndsWith(s: string, p: string) {
    |p| <= |s| && s[|s| - |p|..] == p
  }

  /** `sub` occurs in `s` starting at char index `i`. */
  predicate OccursAt(s: string, sub: string, i: nat) {
    i + |sub| <= |s| && s[i..i + |sub|] == sub
  }

  /** First char index at or after `from` where `sub` occurs. */
  function FindFrom(s: string, sub: string, from: nat): (r: Option<nat>)
    requires from <= |s|
    ensures r.Some? ==> from <= r.value && OccursAt(s, sub, r.value)
    ensures forall j :: from <= j && (r.None? || j < r.value) ==> !OccursAt(s, sub, j)
    decreases |s| - from
  {
    if OccursAt(s, sub, from) then Some(from)
    else if from == |s| then None
    else FindFrom(s, sub, from + 1)
  }

  /** `str::find` with a string pattern, as a char index: the first occurrence of `sub`. */
  function Find(s: string, sub: string): (r: Option<nat>)
    ensures r.Some? ==> OccursAt(s, sub, r.value)
    ensures forall j: nat :: (r.None? || j < r.value) ==> !OccursAt(s, sub, j)
  {
    FindFrom(s, sub, 0)
  }

  /** `str::contains` with a string pattern. */
  predicate Contains(s: string, sub: string) {
    Find(s, sub).Some?
  }

  lemma ContainsAt(s: string, sub: string, i: nat)
    requires OccursAt(s, sub, i)
    ensures Contains(s, sub)
  {
  }

  /** A string contains whatever a substring of it contains. */
  lemma {:induction false} ContainsTransitive(s: string, mid: string, sub: string)
    requires Contains(s, mid) && Contains(mid, sub)
    ensures Contains(s, sub)
  {
    var i := Find(s, mid).value;
    var j := Find(mid, sub).value;
    assert mid == s[i..i + |mid|];
    forall k | 0 <= k < |sub|
      ensures s[i + j..i + j + |sub|][k] == sub[k]
    {
      assert s[i + j + k] == mid[j + k];
      assert mid[j..j + |sub|][k] == sub[k];
    }
    assert s[i + j..i + j + |sub|] == sub;
    ContainsAt(s, sub, i + j);
  }

  /** A string contains whatever it is glued together from. */
  lemma ContainsInfix(a: string, b: string, c: string)
    ensures Contains(a + b + c, b)
  {
    assert (a + b + c)[|a|..|a| + |b|] == b;
    ContainsAt(a + b + c, b, |a|);
  }

  /** `char::is_whitespace`: the Unicode White_Space property. */
  predicate IsWhitespace(c: char) {
    var n := c as int;
    (9 <= n <= 13) || n == 0x20 || n == 0x85 || n == 0xA0 || n == 0x1680
    || (0x2000 <= n <= 0x200A) || n == 0x2028 || n == 0x2029 || n == 0x202F
    || n == 0x205F || n == 0x3000
  }

  /** `str::trim_start`. */
  function TrimStart(s: string): (r: string)
    ensures |r| <= |s|
  {
    if s != [] && IsWhitespace(s[0]) then TrimStart(s[1..]) else s
  }

  /** `str::trim_end`. */
  function TrimEnd(s: string): string {
    if s != [] && IsWhitespace(s[|s| - 1]) then TrimEnd(s[..|s| - 1]) else s
  }

  /** `str::trim`: the slice of `s` between its leading and its trailing whitespace. */
  function Trim(s: string): string {
    TrimEnd(TrimStart(s))
  }

  /** `TrimStart` drops exactly the leading whitespace. */
  lemma {:induction false} TrimStartShape(s: string)
    ensures var r := TrimStart(s);
            && |r| <= |s| && r == s[|s| - |r|..]
            && (forall k :: 0 <= k < |s| - |r| ==> IsWhitespace(s[k]))
            && (r != [] ==> !IsWhitespace(r[0]))
  {
    if s != [] && IsWhitespace(s[0]) {
      var r := TrimStart(s[1..]);
      TrimStartShape(s[1..]);
      assert s[1..][|s| - 1 - |r|..] == s[|s| - |r|..];
      forall k | 0 < k < |s| - |r| ensures IsWhitespace(s[k]) {
        assert s[k] == s[1..][k - 1];
      }
    }
  }

  /** `TrimEnd` drops exactly the trailing whitespace. */
  lemma {:induction false} TrimEndShape(s: string)
    ensures var r := TrimEnd(s);
            && |r| <= |s| && r == s[..|r|]
            && (forall k :: |r| <= k < |s| ==> IsWhitespace(s[k]))
            && (r != [] ==> !IsWhitespace(r[|r| - 1]))
  {
    if s != [] && IsWhitespace(s[|s| - 1]) {
      var r := TrimEnd(s[..|s| - 1]);
      TrimEndShape(s[..|s| - 1]);
      assert s[..|s| - 1][..|r|] == s[..|r|];
    }
  }

  /** `Trim` keeps a slice of `s`, drops only whitespace around it, and keeps none at either end. */
  lemma TrimShape(s: string)
    ensures var r, i := Trim(s), |s| - |TrimStart(s)|;
            && i + |r| <= |s| && r == s[i..i + |r|]
            && (forall k :: 0 <= k < i ==> IsWhitespace(s[k]))
            && (forall k :: i + |r| <= k < |s| ==> IsWhitespace(s[k]))
            && (r != [] ==> !IsWhitespace(r[0]) && !IsWhitespace(r[|r| - 1]))
  {
    var t := TrimStart(s);
    TrimStartShape(s);
    TrimEndShape(t);
    var r := TrimEnd(t);
    assert r == s[|s| - |t|..|s| - |t| + |r|];
  }

  /** A string with no whitespace at either end is its own trim. */
  lemma TrimNoop(s: string)
    requires s != [] && !IsWhitespace(s[0]) && !IsWhitespace(s[|s| - 1])
    ensures Trim(s) == s
  {
    assert TrimStart(s) == s;
  }

  /** Trimming twice is trimming once. */
  lemma TrimIdempotent(s: string)
    ensures Trim(Trim(s)) == Trim(s)
  {
    var r := Trim(s);
    if r != [] {
      TrimShape(s);
      TrimNoop(r);
    }
  }

  /** Lower case of one char, ASCII letters only. */
  function LowerChar(c: char): char {
    if 'A' <= c <= 'Z' then (c as int + 32) as char else c
  }

  /** `str::to_lowercase`, restricted to ASCII letters (every other char is kept). */
  function ToLower(s: string): (r: string)
    ensures |r| == |s|
    ensures forall k :: 0 <= k < |s| ==> r[k] == LowerChar(s[k])
  {
    seq(|s|, k requires 0 <= k < |s| => LowerChar(s[k]))
  }

  /** `[String]::join(sep)`. */
  function Join(xs: seq<string>, sep: string): string {
    if xs == [] then ""
    else if |xs| == 1 then xs[0]
    else xs[0] + sep + Join(xs[1..], sep)
  }

  /** Joining a non-empty tail after a first piece. */
  lemma JoinCons(x: string, ys: seq<string>, sep: string)
    requires ys != []
    ensures Join([x] + ys, sep) == x + sep + Join(ys, sep)
  {
    assert ([x] + ys)[1..] == ys;
  }

  /** Index of the first `c` in `s`, or `|s|` when there is none. */
  function IndexOfChar(s: string, c: char): (k: nat)
    ensures k <= |s|
    ensures k < |s| ==> s[k] == c
    ensures forall j :: 0 <= j < k ==> s[j] != c
  {
    if s == [] then 0
    else if s[0] == c then 0
    else 1 + IndexOfChar(s[1..], c)
  }

  /** `str::split(c)`: the pieces between occurrences of `c` (one piece when there is none). */
  function Split(s: string, c: char): (r: seq<string>)
    ensures |r| >= 1
    decreases |s|
  {
    var k := IndexOfChar(s, c);
    if k == |s| then [s] else [s[..k]] + Split(s[k + 1..], c)
  }

  /** Splitting what `Join` glued together gives the pieces back, as long as no piece holds the separator. */
  lemma {:induction false} SplitJoin(xs: seq<string>, c: char)
    requires xs != []
    requires forall i :: 0 <= i < |xs| ==> c !in xs[i]
    ensures Split(Join(xs, [c]), c) == xs
  {
    if |xs| == 1 {
      assert IndexOfChar(xs[0], c) == |xs[0]|;
    } else {
      var s := Join(xs, [c]);
      var rest := Join(xs[1..], [c]);
      assert s == xs[0] + [c] + rest;
      assert IndexOfChar(s, c) == |xs[0]| by {
        assert s[|xs[0]|] == c;
        forall j | 0 <= j < |xs[0]| ensures s[j] != c {
          assert s[j] == xs[0][j];
        }
      }
      assert s[..|xs[0]|] == xs[0];
      assert s[|xs[0]| + 1..] == rest;
      SplitJoin(xs[1..], c);
    }
  }

  /** A first piece, the separator, then a joined tail: splitting gives the pieces back. */
  lemma SplitAfterHead(x: string, ys: seq<string>, c: char)
    requires c !in x && ys != []
    requires forall i :: 0 <= i < |ys| ==> c !in ys[i]
    ensures Split(x + [c] + Join(ys, [c]), c) == [x] + ys
  {
    var xs := [x] + ys;
    JoinCons(x, ys, [c]);
    forall i | 0 <= i < |xs| ensures c !in xs[i] {
      if i > 0 {
        assert xs[i] == ys[i - 1];
      }
    }
    SplitJoin(xs, c);
  }

  const U32_MAX: nat := 0xFFFF_FFFF

  predicate IsDigit(c: char) {
    '0' <= c <= '9'
  }

  predicate AllDigits(s: string) {
    forall k :: 0 <= k < |s| ==> IsDigit(s[k])
  }

  /** The digit char for `d`. */
  function DigitChar(d: nat): (c: char)
    requires d < 10
    ensures IsDigit(c) && c as int - '0' as int == d
  {
    ('0' as int + d) as char
  }

  /** The number a string of decimal digits denotes. */
  function DigitsValue(s: string): nat
    requires AllDigits(s)
  {
    if s == [] then 0
    else DigitsValue(s[..|s| - 1]) * 10 + (s[|s| - 1] as int - '0' as int)
  }

  /** The decimal text of `n`, as Rust's `{}` formats an integer. */
  function Decimal(n: nat): (s: string)
    ensures s != [] && AllDigits(s)
    ensures |s| > 1 ==> s[0] != '0'
  {
    if n < 10 then [DigitChar(n)] else Decimal(n / 10) + [DigitChar(n % 10)]
  }

  /** `Decimal` is undone by reading the digits back. */
  lemma {:induction false} DecimalValue(n: nat)
    ensures DigitsValue(Decimal(n)) == n
  {
    if n >= 10 {
      var s := Decimal(n);
      assert s[..|s| - 1] == Decimal(n / 10);
      DecimalValue(n / 10);
    }
  }

  /**
    * `str::parse::<u32>()`: an optional single leading '+', then one or more decimal
    * digits, whose value fits in 32 bits. Anything else is an error.
    */
  function ParseU32(s: string): (r: Option<nat>)
    ensures r.Some? ==> r.value <= U32_MAX
    ensures r.Some? ==> s != [] && (IsDigit(s[0]) || s[0] == '+')
    ensures s == [] || s == "+" ==> r.None?
    ensures r.Some? ==> var start := if s[0] == '+' then 1 else 0;
      start < |s| && AllDigits(s[start..]) && r.value == DigitsValue(s[start..])
  {
    var digits := if |s| >= 2 && s[0] == '+' then s[1..] else s;
    if digits == [] || !AllDigits(digits) then None
    else if DigitsValue(digits) <= U32_MAX then Some(DigitsValue(digits))
    else None
  }

  /** Every 32-bit number survives being formatted and parsed again. */
  lemma ParseDecimal(n: nat)
    requires n <= U32_MAX
    ensures ParseU32(Decimal(n)) == Some(n)
  {
    DecimalValue(n);
  }

  /** Digits that do not start with '0' (other than "0" itself) denote a positive number. */
  lemma {:induction false} LeadingDigitPositive(s: string)
    requires s != [] && AllDigits(s) && s[0] != '0'
    ensures DigitsValue(s) >= 1
  {
    if |s| > 1 {
      LeadingDigitPositive(s[..|s| - 1]);
    }
  }

  /** Digits without a superfluous leading zero are the decimal text of their value. */
  lemma {:induction false} DecimalOfDigits(s: string)
    requires s != [] && AllDigits(s) && (|s| > 1 ==> s[0] != '0')
    ensures Decimal(DigitsValue(s)) == s
  {
    if |s| > 1 {
      var p := s[..|s| - 1];
      var d := s[|s| - 1] as int - '0' as int;
      LeadingDigitPositive(p);
      DecimalOfDigits(p);
      var v := DigitsValue(s);
      assert v == DigitsValue(p) * 10 + d && 0 <= d < 10;
      assert v / 10 == DigitsValue(p) && v % 10 == d;
      assert s == p + [s[|s| - 1]];
    }
  }

  /**
    * The reverse round trip: a number `parse::<u32>` accepts from text written
    * without '+' and without leading zeros is formatted back to that text.
    */
  lemma ParseCanonical(s: string)
    requires ParseU32(s).Some?
    requires s[0] != '+' && (|s| > 1 ==> s[0] != '0')
    ensures Decimal(ParseU32(s).value) == s
  {
    DecimalOfDigits(s);
  }
}
